=== FILE: README.md ===
# Norzka's GAMMA installer: the modpack list decoder, in Dafny

This project models the pure core of the installer's `ModPackMaker`. It
covers:

- how a modpack maker list (`modpack_maker_list.txt`) is decoded into
  entries: separators, standard mods and custom mods;
- how entries are numbered by the global `CurrentModIndex` counter;
- how download links are cut into host and path;
- how the folder names of the entries are formed;
- how the archive extension is picked from a `Content-Type` header and the
  download procedure from a host name;
- how the line that `LogError` appends to the error mod list is laid out;
- the `trim`/`reduce` string helpers the decoder cleans fields with.

Modules, one concept each:

| module | file | what it holds |
|---|---|---|
| `Wrappers` | wrappers.dfy | `Option`, `Result` |
| `CustomStrings` | custom_strings.dfy | `trim`, `reduce` (reference definition and the loop as written) |
| `NosString` | nos_string.dfy | splitting at a delimiter, joining, substring search |
| `Decimal` | decimal.dfy | decimal rendering of an index and reading it back |
| `HostPaths` | host_path.dfy | `HostPath(link)` |
| `ModInfos` | mod_info.dfy | the `ModInfo` entry, its three constructors, the counter, `GetFullFileName` |
| `Manifest` | manifest.dfy | `ParseLine`, inner-path normalisation, `ModpackMakerFile_Parse` |
| `Downloading` | downloading.dfy | `GetFileExtensionFromHeader`, `DetermineHostType` |
| `ErrorLedger` | error_ledger.dfy | the `pathList` loop and the error mod list line |

Where the installer's documented behaviour and its code disagree, the model
follows the code in two places:

- A blank line of the list is not skipped. `std::getline` yields `""`, and
  `ParseLine` turns it into a separator with an empty name.
- A link whose third `/` is its last character is not cut either. Both parts
  stay empty, just as with fewer than three slashes.

In one place the model departs from the code and follows the documented
behaviour instead: a line with two to five fields is a decoding error
(`MissingFields`). The code reads `wordArray[2..5]`, which the split did not
fill, and what `DynamicArray` does on such a read is not part of this model.

## Model

| member | source | states |
|---|---|---|
| CustomStrings.Trim | NorzkasGammaInstaller/Headers/String.h:8-18 | the result is empty exactly when the input is all whitespace; it neither starts nor ends with whitespace; the input is some all-whitespace prefix, the result, and some all-whitespace suffix |
| CustomStrings.TrimUnique | NorzkasGammaInstaller/Headers/String.h:8-18 | stripping whitespace-only ends off a string bounded by non-whitespace gives that string back: the trim is determined by that decomposition |
| CustomStrings.TrimIdempotent | NorzkasGammaInstaller/Headers/String.h:8-18 | trimming twice is trimming once |
| CustomStrings.Reduce | NorzkasGammaInstaller/Headers/String.h:20-38 | the reduced string neither starts nor ends with whitespace |
| CustomStrings.ReduceInPlace | NorzkasGammaInstaller/Headers/String.h:20-38 | the in-place loop that replaces each whitespace run by `fill` and resumes after the fill computes the reference definition: trim, then every interior run replaced by the fill; the loop terminates, and the search for a run's end never comes back empty because the string was trimmed first |
| CustomStrings.CollapseAtRun | NorzkasGammaInstaller/Headers/String.h:26-36 | at the first whitespace run, the text before it is kept, the run becomes one fill, and the rest is collapsed the same way |
| CustomStrings.ReduceSingleSpaced | NorzkasGammaInstaller/Headers/String.h:20-38 | with the default fill and whitespace, the result has no tab and no two adjacent whitespace characters |
| CustomStrings.ReduceFixpoint | NorzkasGammaInstaller/Headers/String.h:20-38 | a single-spaced string without outer whitespace is left unchanged |
| CustomStrings.ReduceIdempotent | NorzkasGammaInstaller/Headers/String.h:20-38 | reducing twice is reducing once |
| CustomStrings.ReduceKeepsContent | NorzkasGammaInstaller/Headers/String.h:20-38 | with a whitespace fill, the non-whitespace characters are kept, all of them and in order |
| HostPaths.FromLink | NorzkasGammaInstaller/Headers/ModMakerParsing.hpp:57-75 | when the link holds a third slash that is not its last character, host plus path is the link, the host holds exactly two slashes, and the path starts with the third slash and has at least two characters; otherwise both parts are empty; the host is empty exactly when nothing was cut |
| HostPaths.HasThirdSlashIff | NorzkasGammaInstaller/Headers/ModMakerParsing.hpp:57-75 | the link is cut exactly when some third slash is followed by another character, and the host ends just before that slash |
| HostPaths.FromLinkRejoin | NorzkasGammaInstaller/Headers/ModMakerParsing.hpp:57-75 | cutting the rejoined `Host + Path` again gives the same parts |
| ModInfos.Construct | NorzkasGammaInstaller/Headers/ModMakerParsing.hpp:91-169 | the separator and standard constructors take the counter as their index and advance it by one; the custom constructor leaves the counter alone; each constructor builds its own kind; the name and inner paths are copied, and so are the creator, original link and left-over of a standard mod and the output path and install-path flag of a custom one; the link is cut by `HostPath`; the file extension starts empty |
| ModInfos.ConstructAll | NorzkasGammaInstaller/Headers/ModMakerParsing.hpp:91-169 | one entry per constructor call; the counter ends advanced by the number of numbered calls |
| ModInfos.ConstructAllAt | NorzkasGammaInstaller/Headers/ModMakerParsing.hpp:91-169 | entry k is call k run with the counter advanced once for each numbered call before it |
| ModInfos.ConstructAllIndex | NorzkasGammaInstaller/Headers/ModMakerParsing.hpp:91-169 | a numbered entry's index is the start value plus the number of numbered entries before it, so custom entries leave no gap |
| ModInfos.ConstructAllIncreasing | NorzkasGammaInstaller/Headers/ModMakerParsing.hpp:91-169 | later numbered entries have strictly larger indices, so no index repeats |
| ModInfos.ConstructAllNoCustom | NorzkasGammaInstaller/Headers/ModMakerParsing.hpp:91-169 | without custom entries, entry k has index start + k |
| ModInfos.FullFileNameExtension | NorzkasGammaInstaller/Headers/ModMakerParsing.hpp:172-188 | a separator's name ignores the flag; for the other kinds the name with extension is the name without it followed by the file extension |
| ModInfos.FullFileNameIndex | NorzkasGammaInstaller/Headers/ModMakerParsing.hpp:172-188 | the name of a numbered entry starts with its decimal index followed by `- `, and reading that number back gives the index |
| ModInfos.FullFileNamesDistinct | NorzkasGammaInstaller/Headers/ModMakerParsing.hpp:172-188 | numbered entries with different indices get different names, whatever the flags |
| ModInfos.FullFileName | NorzkasGammaInstaller/Headers/ModMakerParsing.hpp:172-188 | a numbered entry's name starts with its index, `- ` and its name; a separator's name ends in `_separator`, whatever the flag, and holds nothing else; a standard mod's name has one space after its name, then its creator, then, with the flag, its file extension, and holds nothing else; a custom entry's name is its name followed, with the flag, by its file extension |
| ModInfos.SetFileExtension | NorzkasGammaInstaller/Headers/ModMakerParsing.hpp:482 | the download sets the extension of a standard or custom entry and changes nothing else; a separator is untouched |
| Decimal.NatToStringValue | NorzkasGammaInstaller/Headers/ModMakerParsing.hpp:177 | reading the rendered index back gives the index |
| Decimal.NatToStringInjective | NorzkasGammaInstaller/Headers/ModMakerParsing.hpp:177 | different indices render differently |
| Manifest.Reduced | NorzkasGammaInstaller/Headers/ModMakerParsing.hpp:249-253 | a reduced field has no tab, no two adjacent whitespace characters and no outer whitespace |
| Manifest.NormalisePart | NorzkasGammaInstaller/Headers/ModMakerParsing.hpp:268-284 | the part becomes a normal path, starting and ending with `\`; `0` and `\` become `\`; the empty part becomes a single `\`; any other part is kept, with at most one `\` added at the front and one at the back; nothing is added at the front of a part that starts with `\` nor at the back of one that ends with `\`; a part that is already normal is unchanged |
| Manifest.NormalisePaths | NorzkasGammaInstaller/Headers/ModMakerParsing.hpp:265-289 | every part is normalised in place and `\` is among the results; when no part is a root token, `\` is put in front |
| Manifest.NormaliseInnerPaths | NorzkasGammaInstaller/Headers/ModMakerParsing.hpp:265-289 | the loop as written, its body normalising each part in place and setting `hasRoot` on a root token, followed by the insertion of `\` when no root was seen, computes `NormalisePaths` |
| Manifest.NormalisePathsFixed | NorzkasGammaInstaller/Headers/ModMakerParsing.hpp:265-289 | paths that are all normal and include `\` are left as they are |
| Manifest.NormalisePathsIdempotent | NorzkasGammaInstaller/Headers/ModMakerParsing.hpp:265-289 | normalising normalised inner paths changes nothing |
| Manifest.DecodedPathsOf | NorzkasGammaInstaller/Headers/ModMakerParsing.hpp:262-289 | the inner paths decoded from a reduced field are non-empty, include `\`, and each one is normal, single-spaced and free of `:` |
| Manifest.ParseLine | NorzkasGammaInstaller/Headers/ModMakerParsing.hpp:241-293 | a line never decodes to a custom entry; a failure means two to five fields; every decoded field is in reduced form, and the inner paths have the decoded shape |
| Manifest.ParseLineByTabs | NorzkasGammaInstaller/Headers/ModMakerParsing.hpp:241-293 | the tab count decides the result: no tab gives a separator named by the reduced line, one to four tabs give a missing-fields error with that field count, five or more a standard entry |
| Manifest.ParseLineFields | NorzkasGammaInstaller/Headers/ModMakerParsing.hpp:241-293 | a line of tab-free fields gives a standard entry made of the reduced fields in order, with inner paths from the `:`-pieces of the reduced second field; fields after the sixth are ignored |
| Manifest.ParseLineSeparator | NorzkasGammaInstaller/Headers/ModMakerParsing.hpp:255-259 | a tab-free line is a separator named by the reduced line |
| Manifest.Lines | NorzkasGammaInstaller/Headers/ModMakerParsing.hpp:225-229 | there are no lines exactly when the text is empty; the lines hold no line feed; joining them with line feeds, plus any final line feed, gives the text back (which fixes the lines and their number) |
| Manifest.FirstFailure | NorzkasGammaInstaller/Headers/ModMakerParsing.hpp:225-229 | the position found holds a failure and every earlier result succeeded; no position means every result succeeded |
| Manifest.Assemble | NorzkasGammaInstaller/Headers/ModMakerParsing.hpp:225-229 | the list is built exactly when every line decoded, one entry per line, with the counter advanced once per line; otherwise the error names the first failing line and its own error |
| Manifest.ParseLines | NorzkasGammaInstaller/Headers/ModMakerParsing.hpp:225-230 | the fold over the lines gives one entry per line and advances the counter once per line; a failure names one of the lines |
| Manifest.ParseLinesFailure | NorzkasGammaInstaller/Headers/ModMakerParsing.hpp:219-233 | decoding the list fails exactly when some line fails, and then it reports the first failing line and that line's error |
| Manifest.ParseLinesAt | NorzkasGammaInstaller/Headers/ModMakerParsing.hpp:219-233 | entry k is line k's constructor call run with the counter at its start value plus k |
| Manifest.ParseFile | NorzkasGammaInstaller/Headers/ModMakerParsing.hpp:219-233 | a decoded file leaves the counter at 1 plus its number of lines; a failure points at one of its lines |
| Manifest.ParseFileNumbering | NorzkasGammaInstaller/Headers/ModMakerParsing.hpp:219-233 | the entries of a decoded file are numbered 1, 2, 3, ... in line order |
| Downloading.FileExtensionFromHeader | NorzkasGammaInstaller/Headers/ModMakerParsing.hpp:455-471 | `.zip` exactly when the zip type occurs; `.7z` exactly when the 7z type occurs but not the zip type; `.rar` exactly when either rar type occurs but neither earlier type; `.ERROR` exactly when none of the four occurs |
| Downloading.RecognisedIsApplication | NorzkasGammaInstaller/Headers/ModMakerParsing.hpp:455-471 | only an `application/...` type is recognised as an archive |
| Downloading.DetermineHostType | NorzkasGammaInstaller/Headers/ModMakerParsing.hpp:523-539 | ModDB exactly when the host contains `moddb`; GitHub exactly when it contains `github` but not `moddb`; GoFile exactly when it contains `gofile` but neither earlier name; Unknown exactly when it contains none of them |
| Downloading.UncutLinkIsUnknown | NorzkasGammaInstaller/Headers/ModMakerParsing.hpp:57-75 | a link that was not cut has an empty host, which always takes the unknown-host path |
| ErrorLedger.PathList | NorzkasGammaInstaller/Headers/ModMakerParsing.hpp:356-364 | the loop gives the inner paths joined with `:` |
| ErrorLedger.ErrorListLine | NorzkasGammaInstaller/Headers/ModMakerParsing.hpp:366 | the line is the eight columns joined with tabs and ended by a line feed: full file name with extension, `----`, host plus path, the path list, creator, name, original link, left-over |
| ErrorLedger.ErrorListLineSplits | NorzkasGammaInstaller/Headers/ModMakerParsing.hpp:366 | when no column holds a tab, the line minus its line feed splits back into its eight columns |
| ErrorLedger.PathListReadsBack | NorzkasGammaInstaller/Headers/ModMakerParsing.hpp:356-364 | the path list of decoded inner paths is already in reduced form, holds no tab, and splits at `:` back into the same paths |
| ErrorLedger.ErrorLineReadsBack | NorzkasGammaInstaller/Headers/ModMakerParsing.hpp:241-293 | a standard entry decoded from a line is written, with any tab-free extension, as a line that splits into its columns; its columns after the first two decode to an entry equal to the original |
| NosString.SplitJoin | NorzkasGammaInstaller/Headers/ModMakerParsing.hpp:247 | splitting the join of delimiter-free pieces gives the pieces back |
| NosString.JoinSplit | NorzkasGammaInstaller/Headers/ModMakerParsing.hpp:247 | joining the pieces of a split gives the string back |
| NosString.SplitCount | NorzkasGammaInstaller/Headers/ModMakerParsing.hpp:247 | a string with n delimiters splits into n + 1 pieces |
| NosString.Find | NorzkasGammaInstaller/Headers/ModMakerParsing.hpp:457 | `find` returns the first position where the needle occurs, and `npos` exactly when it occurs nowhere |

## Left out

- Downloading, the HTML scrape of landing pages, extraction, copying files, creating folders and writing the error mod list file. These are network, archive and filesystem I/O. Only the pure decisions they make and the text of the logged line are modelled.
- Appending to `modErrorList`, progress accounting (`SpaceAmountDone`, a float) and the GitHub token. They are state and I/O.
- The NosLib library is not part of this model.
  - `NosString.Split` is taken as the usual split: `n` delimiters give `n + 1` pieces, empty pieces are kept, and the empty string gives one empty piece.
  - The library's `Reduce` with its default arguments is taken to be `reduce` from `String.h` with fill `" "` and whitespace space and tab.
  - `DynamicArray` is modelled as a sequence.
- CustomStrings.Trim: the wide/narrow string conversions are not modelled. Strings are sequences of characters, and the whitespace argument is a set of characters; the same holds for CustomStrings.Reduce.
- ModInfos.Construct: does not model the wrap-around of the 32-bit `int` counter, because indices are unbounded naturals and a wrap would need more than 2^31 entries.
- ModInfos.Construct: a custom entry has no index, because its constructor leaves `ModIndex` uninitialised and nothing reads it for that kind.
- ModInfos.FullFileName: the `Unknown Mod Type` default branch cannot be reached, because the type always holds one of the three kinds.
- Manifest.ParseLine: a line with two to five fields reads array slots the split never filled. That is out-of-range access in the code; the model returns `MissingFields` instead of guessing what the library does.
- Manifest.ParseFile: the first line that fails stops the list. What the code does after its out-of-range read is unknown, since `DynamicArray` is not part of this model.
- Manifest.ParseFile: the static `modInfoList` is not modelled, so parsing twice does not append to an earlier result. The counter is a parameter of `ParseLines` instead of a global.
- Manifest.Lines: the file is read in binary mode, so a `\r` before a line feed stays in the line (and is then an ordinary character of the last field). A final line feed does not start another line.
- Custom entries are never produced by the decoder; only their constructor is modelled.
- Downloading.FileExtensionFromHeader: reading the header out of the HTTP response is not modelled, only the decision on its text.

=== FILE: custom_strings.dfy ===
/** Whitespace normalisation of the installer's string helpers: `trim` strips
    leading and trailing whitespace, `reduce` trims and then replaces every
    maximal interior whitespace run with a fill string.  The whitespace set and
    the fill are parameters, as `trim` and `reduce` take them; `Whitespace` and `Fill` are the
    default arguments. */
module CustomStrings {
  import opened Wrappers

  /** Default whitespace set of `trim` and `reduce`: space and tab.  The installer
      passes the set as a string of characters; only membership matters. */
  const Whitespace: set<char> := {' ', '\t'}

  /** Default fill of `reduce`: a single space. */
  const Fill: string := " "

  /** Every character of `t` belongs to `ws`. */
  predicate AllIn(t: string, ws: set<char>) {
    forall k :: 0 <= k < |t| ==> t[k] in ws
  }

  /** No character of `t` belongs to `ws`. */
  predicate NoneIn(t: string, ws: set<char>) {
    forall k :: 0 <= k < |t| ==> t[k] !in ws
  }

  /** `t` is empty, or neither starts nor ends with a character of `ws`. */
  predicate Bounded(t: string, ws: set<char>) {
    t == [] || (t[0] !in ws && t[|t| - 1] !in ws)
  }

  /** `t` holds no tab and no two adjacent whitespace characters. */
  predicate SingleSpaced(t: string) {
    && '\t' !in t
    && forall i :: 0 < i < |t| && t[i] in Whitespace ==> t[i - 1] !in Whitespace
  }

  // ---------------------------------------------------------------------------
  // The `std::wstring` searches the helpers are built from; `None` is `npos`.
  // ---------------------------------------------------------------------------

  /** `s.find_first_of(ws, from)`: the first position at or after `from` holding whitespace. */
  function FindFirstOf(s: string, ws: set<char>, from: nat): (r: Option<nat>)
    ensures r.Some? ==> from <= r.value < |s| && s[r.value] in ws
    decreases |s| - from
  {
    if from >= |s| then None
    else if s[from] in ws then Some(from)
    else FindFirstOf(s, ws, from + 1)
  }

  /** `s.find_first_not_of(ws, from)`: the first position at or after `from` holding a non-whitespace character. */
  function FindFirstNotOf(s: string, ws: set<char>, from: nat): (r: Option<nat>)
    ensures r.Some? ==> from <= r.value < |s| && s[r.value] !in ws
    decreases |s| - from
  {
    if from >= |s| then None
    else if s[from] !in ws then Some(from)
    else FindFirstNotOf(s, ws, from + 1)
  }

  /** `s.find_last_not_of(ws)` restricted to the positions below `end`. */
  function FindLastNotOf(s: string, ws: set<char>, end: nat): (r: Option<nat>)
    requires end <= |s|
    ensures r.Some? ==> r.value < end && s[r.value] !in ws
    decreases end
  {
    if end == 0 then None
    else if s[end - 1] !in ws then Some(end - 1)
    else FindLastNotOf(s, ws, end - 1)
  }

  // The searches skip nothing: every position passed over fails the test.
  // These facts are lemmas rather than postconditions so that they are only
  // brought in where a proof needs them.

  lemma {:induction false} FindFirstOfSkips(s: string, ws: set<char>, from: nat)
    ensures var r := FindFirstOf(s, ws, from);
      forall k :: from <= k < |s| && (r.None? || k < r.value) ==> s[k] !in ws
    decreases |s| - from
  {
    if from < |s| && s[from] !in ws {
      FindFirstOfSkips(s, ws, from + 1);
    }
  }

  lemma {:induction false} FindFirstNotOfSkips(s: string, ws: set<char>, from: nat)
    ensures var r := FindFirstNotOf(s, ws, from);
      forall k :: from <= k < |s| && (r.None? || k < r.value) ==> s[k] in ws
    decreases |s| - from
  {
    if from < |s| && s[from] in ws {
      FindFirstNotOfSkips(s, ws, from + 1);
    }
  }

  lemma {:induction false} FindLastNotOfSkips(s: string, ws: set<char>, end: nat)
    requires end <= |s|
    ensures var r := FindLastNotOf(s, ws, end);
      forall k :: (r.None? || r.value < k) && 0 <= k < end ==> s[k] in ws
    decreases end
  {
    if end > 0 && s[end - 1] in ws {
      FindLastNotOfSkips(s, ws, end - 1);
    }
  }

  // ---------------------------------------------------------------------------
  // trim
  // ---------------------------------------------------------------------------

  /** `trim(str, ws)`: the empty string when `str` is all whitespace, otherwise
      the slice from the first to the last non-whitespace character. */
  function Trim(str: string, ws: set<char>): (r: string)
    ensures r == [] <==> AllIn(str, ws)
    ensures Bounded(r, ws)
    ensures exists lead, trail :: str == lead + r + trail && AllIn(lead, ws) && AllIn(trail, ws)
  {
    FindFirstNotOfSkips(str, ws, 0);
    FindLastNotOfSkips(str, ws, |str|);
    match FindFirstNotOf(str, ws, 0)
    case None =>
      assert str == str + [] + [] && AllIn(str, ws) && AllIn([], ws);
      []
    case Some(b) =>
      var e := FindLastNotOf(str, ws, |str|).value;
      var lead, trail := str[..b], str[e + 1..];
      assert str == lead + str[b..e + 1] + trail;
      assert AllIn(lead, ws) by {
        forall k | 0 <= k < |lead| ensures lead[k] in ws { assert lead[k] == str[k]; }
      }
      assert AllIn(trail, ws) by {
        forall k | 0 <= k < |trail| ensures trail[k] in ws { assert trail[k] == str[e + 1 + k]; }
      }
      str[b..e + 1]
  }

  /** The trim of `lead + m + trail` is `m` whenever `lead` and `trail` are all
      whitespace and `m` is empty or bounded by non-whitespace: only leading and
      trailing whitespace is removed, and all of it is. */
  lemma TrimUnique(s: string, ws: set<char>, lead: string, m: string, trail: string)
    requires s == lead + m + trail
    requires AllIn(lead, ws) && AllIn(trail, ws)
    requires Bounded(m, ws)
    ensures Trim(s, ws) == m
  {
    if m == [] {
      forall k | 0 <= k < |s| ensures s[k] in ws {
        if k < |lead| {
          assert s[k] == lead[k];
        } else {
          assert s[k] == trail[k - |lead|];
        }
      }
    } else {
      var b := |lead|;
      var e := |lead| + |m| - 1;
      assert s[b] == m[0];
      assert s[e] == m[|m| - 1];
      forall k | 0 <= k < b ensures s[k] in ws {
        assert s[k] == lead[k];
      }
      forall k | e < k < |s| ensures s[k] in ws {
        assert s[k] == trail[k - e - 1];
      }
      FindFirstNotOfSkips(s, ws, 0);
      FindLastNotOfSkips(s, ws, |s|);
      assert FindFirstNotOf(s, ws, 0) == Some(b);
      assert FindLastNotOf(s, ws, |s|) == Some(e);
      assert s[b..e + 1] == m;
    }
  }

  /** Trimming twice is trimming once. */
  lemma TrimIdempotent(s: string, ws: set<char>)
    ensures Trim(Trim(s, ws), ws) == Trim(s, ws)
  {
    var m := Trim(s, ws);
    assert m == [] + m + [];
    TrimUnique(m, ws, [], m, []);
  }

  // ---------------------------------------------------------------------------
  // reduce
  // ---------------------------------------------------------------------------

  /** `t` without the whitespace run that opens it. */
  function SkipRun(t: string, ws: set<char>): (r: string)
    ensures |r| <= |t|
    decreases |t|
  {
    if t != [] && t[0] in ws then SkipRun(t[1..], ws) else t
  }

  /** `SkipRun` drops exactly the opening run `t[..n]`. */
  lemma {:induction false} SkipRunSplit(t: string, ws: set<char>) returns (n: nat)
    ensures n <= |t| && SkipRun(t, ws) == t[n..]
    ensures forall k :: 0 <= k < n ==> t[k] in ws
    ensures n < |t| ==> t[n] !in ws
    decreases |t|
  {
    if t != [] && t[0] in ws {
      var m := SkipRunSplit(t[1..], ws);
      n := m + 1;
      assert t[1..][m..] == t[n..];
      forall k | 0 <= k < n ensures t[k] in ws {
        if k > 0 {
          assert t[k] == t[1..][k - 1];
        }
      }
    } else {
      n := 0;
    }
  }

  /** Reference definition of the run replacement: every maximal whitespace
      run of `t` becomes exactly one copy of `fill`, all other characters are
      kept in order. */
  function Collapse(t: string, fill: string, ws: set<char>): string
    decreases |t|
  {
    if t == [] then []
    else if t[0] in ws then fill + Collapse(SkipRun(t[1..], ws), fill, ws)
    else [t[0]] + Collapse(t[1..], fill, ws)
  }

  /** `reduce(str, fill, ws)`: trim, then collapse the interior whitespace runs. */
  function Reduce(str: string, fill: string, ws: set<char>): (r: string)
    ensures Bounded(r, ws)
  {
    var t := Trim(str, ws);
    CollapseEnds(t, fill, ws);
    Collapse(t, fill, ws)
  }

  /** The `reduce` loop: it finds each whitespace run of the trimmed string in
      turn, replaces it with `fill` and resumes the search after the fill. */
  method ReduceInPlace(str: string, fill: string, ws: set<char>) returns (result: string)
    ensures result == Reduce(str, fill, ws)
  {
    result := Trim(str, ws);
    ghost var t := result;
    // `result` is always `done + rest`: `done` is final output, `rest` the
    // untouched suffix of the trimmed string.
    ghost var done: string := [];
    ghost var rest: string := t;
    var beginSpace := FindFirstOf(result, ws, 0);
    while beginSpace.Some?
      invariant result == done + rest
      invariant Collapse(t, fill, ws) == done + Collapse(rest, fill, ws)
      invariant rest == [] || rest[|rest| - 1] !in ws
      invariant beginSpace == FindFirstOf(result, ws, |done|)
      decreases |rest|
    {
      var b := beginSpace.value;
      ghost var i, j := RunInsideRest(result, done, rest, ws, b);
      var endSpace := FindFirstNotOf(result, ws, b);
      // `result` still ends in the trimmed string's last, non-whitespace
      // character, so the search for the end of the run never yields npos.
      assert endSpace.Some?;
      var range := endSpace.value - b;
      ghost var done', rest' := ReplaceRun(t, result, done, rest, fill, ws, i, j, b, range);
      result := result[..b] + fill + result[b + range..];
      done, rest := done', rest';
      var newStart := b + |fill|;
      assert newStart == |done|;
      beginSpace := FindFirstOf(result, ws, newStart);
    }
    NoRunInRest(done, rest, ws);
    CollapseNoWhitespace(rest, fill, ws);
  }

  /** The run found by the loop at `b` is `rest[i..j]` for `i = b - |done|`,
      and a non-whitespace character follows it inside `rest`. */
  lemma RunInsideRest(result: string, done: string, rest: string, ws: set<char>, b: nat) returns (i: nat, j: nat)
    requires result == done + rest
    requires rest == [] || rest[|rest| - 1] !in ws
    requires FindFirstOf(result, ws, |done|) == Some(b)
    ensures FindFirstNotOf(result, ws, b) == Some(|done| + j)
    ensures b == |done| + i && i < j < |rest|
    ensures forall k :: 0 <= k < i ==> rest[k] !in ws
    ensures forall k :: i <= k < j ==> rest[k] in ws
    ensures rest[j] !in ws
  {
    assert result[|result| - 1] == rest[|rest| - 1];
    FindFirstOfSkips(result, ws, |done|);
    FindFirstNotOfSkips(result, ws, b);
    var e := FindFirstNotOf(result, ws, b);
    assert e.Some?;
    i, j := b - |done|, e.value - |done|;
    forall k | 0 <= k < i ensures rest[k] !in ws {
      assert rest[k] == result[|done| + k];
    }
    forall k | i <= k < j ensures rest[k] in ws {
      assert rest[k] == result[|done| + k];
    }
    assert rest[j] == result[e.value];
  }

  /** One turn of the `reduce` loop keeps its invariant: replacing the run
      `rest[i..j]` by `fill` moves `rest[..i] + fill` into the finished part. */
  lemma ReplaceRun(t: string, result: string, done: string, rest: string, fill: string, ws: set<char>,
                   i: nat, j: nat, b: nat, range: int)
    returns (done': string, rest': string)
    requires result == done + rest
    requires b == |done| + i && b + range == |done| + j
    requires Collapse(t, fill, ws) == done + Collapse(rest, fill, ws)
    requires i < j < |rest|
    requires forall k :: 0 <= k < i ==> rest[k] !in ws
    requires forall k :: i <= k < j ==> rest[k] in ws
    requires rest[j] !in ws && rest[|rest| - 1] !in ws
    ensures 0 <= b <= b + range <= |result|
    ensures result[..b] + fill + result[b + range..] == done' + rest'
    ensures Collapse(t, fill, ws) == done' + Collapse(rest', fill, ws)
    ensures rest' == [] || rest'[|rest'| - 1] !in ws
    ensures |done'| == b + |fill| && |rest'| < |rest|
  {
    CollapseStep(t, done, rest, fill, ws, i, j);
    SpliceAt(result, done, rest, fill, i, j);
    done', rest' := done + rest[..i] + fill, rest[j..];
  }

  /** The collapse side of one loop turn. */
  lemma CollapseStep(t: string, done: string, rest: string, fill: string, ws: set<char>, i: nat, j: nat)
    requires Collapse(t, fill, ws) == done + Collapse(rest, fill, ws)
    requires i < j < |rest|
    requires forall k :: 0 <= k < i ==> rest[k] !in ws
    requires forall k :: i <= k < j ==> rest[k] in ws
    requires rest[j] !in ws && rest[|rest| - 1] !in ws
    ensures Collapse(t, fill, ws) == (done + rest[..i] + fill) + Collapse(rest[j..], fill, ws)
    ensures rest[j..][|rest[j..]| - 1] !in ws
  {
    CollapseAtRun(rest, fill, ws, i, j);
    var front, tail := rest[..i], Collapse(rest[j..], fill, ws);
    assert done + (front + fill + tail) == (done + front + fill) + tail;
    assert rest[j..][|rest[j..]| - 1] == rest[|rest| - 1];
  }

  /** The loop's replacement of `result[b..e]` by `fill`, seen on `done + rest`. */
  lemma SpliceAt(result: string, done: string, rest: string, fill: string, i: nat, j: nat)
    requires result == done + rest
    requires i <= j <= |rest|
    ensures result[..|done| + i] + fill + result[|done| + j..] == (done + rest[..i] + fill) + rest[j..]
  {
    assert result[..|done| + i] == done + rest[..i];
    assert result[|done| + j..] == rest[j..];
  }

  /** When the loop's search fails, the untouched suffix holds no whitespace. */
  lemma NoRunInRest(done: string, rest: string, ws: set<char>)
    requires FindFirstOf(done + rest, ws, |done|) == None
    ensures NoneIn(rest, ws)
  {
    FindFirstOfSkips(done + rest, ws, |done|);
    forall k | 0 <= k < |rest| ensures rest[k] !in ws {
      assert rest[k] == (done + rest)[|done| + k];
    }
  }

  /** A string without whitespace is its own collapse. */
  lemma {:induction false} CollapseNoWhitespace(t: string, fill: string, ws: set<char>)
    requires NoneIn(t, ws)
    ensures Collapse(t, fill, ws) == t
    decreases |t|
  {
    if t != [] {
      CollapseNoWhitespace(t[1..], fill, ws);
    }
  }

  /** Cutting a string at its first whitespace run: the prefix `t[..i]` is kept,
      the run `t[i..j]` becomes one fill and the rest collapses on its own. */
  lemma {:induction false} CollapseAtRun(t: string, fill: string, ws: set<char>, i: nat, j: nat)
    requires i < j <= |t|
    requires forall k :: 0 <= k < i ==> t[k] !in ws
    requires forall k :: i <= k < j ==> t[k] in ws
    requires j < |t| ==> t[j] !in ws
    ensures Collapse(t, fill, ws) == t[..i] + fill + Collapse(t[j..], fill, ws)
    decreases i
  {
    if i == 0 {
      var n := SkipRunSplit(t, ws);
      assert n == j;
    } else {
      CollapseAtRun(t[1..], fill, ws, i - 1, j - 1);
      assert t[1..][j - 1..] == t[j..];
      assert t[..i] == [t[0]] + t[1..][..i - 1];
    }
  }

  /** A non-empty string that ends in non-whitespace collapses to a non-empty
      string with the same first (when not whitespace) and last characters. */
  lemma {:induction false} CollapseEnds(t: string, fill: string, ws: set<char>)
    requires t == [] || t[|t| - 1] !in ws
    ensures var r := Collapse(t, fill, ws);
      && (t == [] <==> r == [])
      && (t != [] ==> r[|r| - 1] == t[|t| - 1])
      && (t != [] && t[0] !in ws ==> r[0] == t[0])
    decreases |t|
  {
    if t != [] {
      if t[0] in ws {
        var n := SkipRunSplit(t, ws);
        assert t[|t| - 1] !in ws;
        assert n < |t|;
        CollapseEnds(t[n..], fill, ws);
      } else {
        CollapseEnds(t[1..], fill, ws);
      }
    }
  }

  /** With the default fill, the collapse of a string ending in non-whitespace
      has no tab, no two adjacent whitespace characters, and keeps the ending. */
  lemma {:induction false} CollapseSingleSpaced(t: string)
    requires t == [] || t[|t| - 1] !in Whitespace
    ensures var r := Collapse(t, Fill, Whitespace);
      && SingleSpaced(r)
      && (t == [] <==> r == [])
      && (t != [] ==> r[0] == (if t[0] in Whitespace then ' ' else t[0]))
    decreases |t|
  {
    if t != [] {
      var r := Collapse(t, Fill, Whitespace);
      if t[0] in Whitespace {
        var n := SkipRunSplit(t, Whitespace);
        assert t[|t| - 1] !in Whitespace;
        assert n < |t|;
        CollapseSingleSpaced(t[n..]);
        var rest := Collapse(t[n..], Fill, Whitespace);
        assert r == " " + rest;
        assert rest[0] == t[n];
        forall i | 0 < i < |r| && r[i] in Whitespace ensures r[i - 1] !in Whitespace {
          if i > 1 {
            assert r[i] == rest[i - 1] && r[i - 1] == rest[i - 2];
          }
        }
      } else {
        CollapseSingleSpaced(t[1..]);
        var rest := Collapse(t[1..], Fill, Whitespace);
        assert r == [t[0]] + rest;
        forall i | 0 < i < |r| && r[i] in Whitespace ensures r[i - 1] !in Whitespace {
          if i > 1 {
            assert r[i] == rest[i - 1] && r[i - 1] == rest[i - 2];
          }
        }
      }
    }
  }

  /** A single-spaced string that ends in non-whitespace is its own collapse
      under the default fill. */
  lemma {:induction false} CollapseFixpoint(r: string)
    requires SingleSpaced(r)
    requires r == [] || r[|r| - 1] !in Whitespace
    ensures Collapse(r, Fill, Whitespace) == r
    decreases |r|
  {
    if r != [] {
      if r[0] in Whitespace {
        assert r[0] == ' ';
        assert |r| >= 2;
        assert r[1] !in Whitespace;
        assert SkipRun(r[1..], Whitespace) == r[1..];
      }
      CollapseFixpoint(r[1..]);
    }
  }

  /** With the default arguments, `reduce` leaves no tab and no two adjacent
      whitespace characters: each interior run became exactly one space. */
  lemma ReduceSingleSpaced(s: string)
    ensures SingleSpaced(Reduce(s, Fill, Whitespace))
  {
    CollapseSingleSpaced(Trim(s, Whitespace));
  }

  /** With the default arguments, a single-spaced string bounded by
      non-whitespace is its own reduction. */
  lemma ReduceFixpoint(r: string)
    requires SingleSpaced(r) && Bounded(r, Whitespace)
    ensures Reduce(r, Fill, Whitespace) == r
  {
    assert r == [] + r + [];
    TrimUnique(r, Whitespace, [], r, []);
    CollapseFixpoint(r);
  }

  /** With the default arguments, `reduce` is idempotent. */
  lemma ReduceIdempotent(s: string)
    ensures Reduce(Reduce(s, Fill, Whitespace), Fill, Whitespace) == Reduce(s, Fill, Whitespace)
  {
    ReduceSingleSpaced(s);
    ReduceFixpoint(Reduce(s, Fill, Whitespace));
  }

  /** A slice of a single-spaced string is single-spaced. */
  lemma SingleSpacedSlice(t: string, i: nat, j: nat)
    requires SingleSpaced(t) && i <= j <= |t|
    ensures SingleSpaced(t[i..j])
  {
    var u := t[i..j];
    forall k | 0 <= k < |u| ensures u[k] != '\t' {
      assert u[k] == t[i + k];
    }
    forall k | 0 < k < |u| && u[k] in Whitespace ensures u[k - 1] !in Whitespace {
      assert u[k] == t[i + k] && u[k - 1] == t[i + k - 1];
    }
  }

  /** Two single-spaced strings concatenate to a single-spaced string when
      they do not meet at two whitespace characters. */
  lemma SingleSpacedConcat(a: string, b: string)
    requires SingleSpaced(a) && SingleSpaced(b)
    requires a == [] || b == [] || a[|a| - 1] !in Whitespace || b[0] !in Whitespace
    ensures SingleSpaced(a + b)
  {
    var t := a + b;
    forall k | 0 <= k < |t| ensures t[k] != '\t' {
      if k < |a| { assert t[k] == a[k]; } else { assert t[k] == b[k - |a|]; }
    }
    forall k | 0 < k < |t| && t[k] in Whitespace ensures t[k - 1] !in Whitespace {
      if k < |a| {
        assert t[k] == a[k] && t[k - 1] == a[k - 1];
      } else if k == |a| {
        assert t[k] == b[0] && t[k - 1] == a[|a| - 1];
      } else {
        assert t[k] == b[k - |a|] && t[k - 1] == b[k - |a| - 1];
      }
    }
  }

  // ---------------------------------------------------------------------------
  // Content preservation
  // ---------------------------------------------------------------------------

  /** `s` with every whitespace character deleted. */
  function DeleteWhitespace(s: string, ws: set<char>): string
    decreases |s|
  {
    if s == [] then []
    else (if s[0] in ws then [] else [s[0]]) + DeleteWhitespace(s[1..], ws)
  }

  lemma {:induction false} DeleteWhitespaceAppend(a: string, b: string, ws: set<char>)
    ensures DeleteWhitespace(a + b, ws) == DeleteWhitespace(a, ws) + DeleteWhitespace(b, ws)
    decreases |a|
  {
    if a == [] {
      assert a + b == b;
    } else {
      assert (a + b)[0] == a[0];
      assert (a + b)[1..] == a[1..] + b;
      DeleteWhitespaceAppend(a[1..], b, ws);
    }
  }

  lemma {:induction false} DeleteWhitespaceAll(a: string, ws: set<char>)
    requires AllIn(a, ws)
    ensures DeleteWhitespace(a, ws) == []
    decreases |a|
  {
    if a != [] {
      DeleteWhitespaceAll(a[1..], ws);
    }
  }

  /** Collapsing with an all-whitespace fill keeps the non-whitespace characters in order. */
  lemma {:induction false} CollapseKeepsContent(t: string, fill: string, ws: set<char>)
    requires AllIn(fill, ws)
    ensures DeleteWhitespace(Collapse(t, fill, ws), ws) == DeleteWhitespace(t, ws)
    decreases |t|
  {
    if t != [] {
      if t[0] in ws {
        var n := SkipRunSplit(t, ws);
        CollapseKeepsContent(t[n..], fill, ws);
        DeleteWhitespaceAppend(fill, Collapse(t[n..], fill, ws), ws);
        DeleteWhitespaceAll(fill, ws);
        assert t == t[..n] + t[n..];
        DeleteWhitespaceAppend(t[..n], t[n..], ws);
        DeleteWhitespaceAll(t[..n], ws);
      } else {
        CollapseKeepsContent(t[1..], fill, ws);
        DeleteWhitespaceAppend([t[0]], Collapse(t[1..], fill, ws), ws);
      }
    }
  }

  /** Deleting all whitespace from `reduce(s)` gives the same string as deleting
      it from `s`, whenever the fill is itself whitespace (as the default is). */
  lemma ReduceKeepsContent(s: string, fill: string, ws: set<char>)
    requires AllIn(fill, ws)
    ensures DeleteWhitespace(Reduce(s, fill, ws), ws) == DeleteWhitespace(s, ws)
  {
    var t := Trim(s, ws);
    var lead, trail :| s == lead + t + trail && AllIn(lead, ws) && AllIn(trail, ws);
    CollapseKeepsContent(t, fill, ws);
    DeleteWhitespaceAppend(lead + t, trail, ws);
    DeleteWhitespaceAppend(lead, t, ws);
    DeleteWhitespaceAll(lead, ws);
    DeleteWhitespaceAll(trail, ws);
  }
}

=== FILE: decimal.dfy ===
/** Decimal rendering of a mod index, as `std::format("{}", index)` writes a
    non-negative integer, and reading it back from the front of a name. */
module Decimal {
  predicate IsDigit(c: char) {
    '0' <= c <= '9'
  }

  predicate AllDigits(s: string) {
    forall k :: 0 <= k < |s| ==> IsDigit(s[k])
  }

  function DigitValue(c: char): (v: nat)
    requires IsDigit(c)
    ensures v < 10
  {
    c as int - '0' as int
  }

  function Digit(d: nat): (c: char)
    requires d < 10
    ensures IsDigit(c) && DigitValue(c) == d
  {
    ('0' as int + d) as char
  }

  /** The decimal digits of `n`, most significant first, without leading zeros. */
  function NatToString(n: nat): (s: string)
    ensures |s| >= 1 && AllDigits(s)
    ensures s[0] == '0' <==> n == 0
    decreases n
  {
    if n < 10 then [Digit(n)]
    else NatToString(n / 10) + [Digit(n % 10)]
  }

  /** The number a string of digits denotes. */
  function DigitsValue(s: string): nat
    requires AllDigits(s)
    decreases |s|
  {
    if s == [] then 0
    else DigitsValue(s[..|s| - 1]) * 10 + DigitValue(s[|s| - 1])
  }

  /** Reading the rendering of `n` gives back `n`. */
  lemma {:induction false} NatToStringValue(n: nat)
    ensures DigitsValue(NatToString(n)) == n
    decreases n
  {
    var s := NatToString(n);
    if n < 10 {
      assert s[..|s| - 1] == [];
    } else {
      NatToStringValue(n / 10);
      assert s[..|s| - 1] == NatToString(n / 10);
    }
  }

  /** Different numbers have different renderings. */
  lemma NatToStringInjective(m: nat, n: nat)
    requires m != n
    ensures NatToString(m) != NatToString(n)
  {
    NatToStringValue(m);
    NatToStringValue(n);
  }

  /** The longest prefix of `s` made of digits. */
  function LeadingDigits(s: string): (r: string)
    ensures |r| <= |s| && r == s[..|r|] && AllDigits(r)
    ensures |r| < |s| ==> !IsDigit(s[|r|])
    decreases |s|
  {
    if s == [] || !IsDigit(s[0]) then []
    else [s[0]] + LeadingDigits(s[1..])
  }

  /** The leading digits of `ds + rest` are `ds` when `rest` does not start with a digit. */
  lemma {:induction false} LeadingDigitsAppend(ds: string, rest: string)
    requires AllDigits(ds)
    requires rest == [] || !IsDigit(rest[0])
    ensures LeadingDigits(ds + rest) == ds
    decreases |ds|
  {
    if ds == [] {
      assert ds + rest == rest;
    } else {
      LeadingDigitsAppend(ds[1..], rest);
      assert (ds + rest)[1..] == ds[1..] + rest;
      assert ds == [ds[0]] + ds[1..];
    }
  }
}

=== FILE: downloading.dfy ===
/** The two pure decisions of the download step: which archive extension a
    `Content-Type` header names, and which download procedure a host needs.
    Both are case-sensitive substring tests where the first match wins. */
module Downloading {
  import opened NosString
  import opened HostPaths

  /** The top-level type all four archive types share. */
  const Application := "application/"

  const ZipType := Application + "zip"
  const SevenZipType := Application + "x-7z-compressed"
  const RarType := Application + "x-rar-compressed"
  const VndRarType := Application + "vnd.rar"

  /** The extension used when the header names no known archive type. */
  const UnknownExtension := ".ERROR"

  /** `GetFileExtensionFromHeader(type)`. */
  function FileExtensionFromHeader(contentType: string): (ext: string)
    ensures ext in {".zip", ".7z", ".rar", UnknownExtension}
    ensures ext == ".zip" <==> Occurs(ZipType, contentType)
    ensures ext == ".7z" <==> !Occurs(ZipType, contentType) && Occurs(SevenZipType, contentType)
    ensures ext == ".rar" <==>
      && !Occurs(ZipType, contentType) && !Occurs(SevenZipType, contentType)
      && (Occurs(RarType, contentType) || Occurs(VndRarType, contentType))
    ensures ext == UnknownExtension <==>
      && !Occurs(ZipType, contentType) && !Occurs(SevenZipType, contentType)
      && !Occurs(RarType, contentType) && !Occurs(VndRarType, contentType)
  {
    if Contains(contentType, ZipType) then ".zip"
    else if Contains(contentType, SevenZipType) then ".7z"
    else if Contains(contentType, RarType) || Contains(contentType, VndRarType) then ".rar"
    else UnknownExtension
  }

  /** An occurrence of a string is an occurrence of its head. */
  lemma OccursHead(head: string, tail: string, hay: string)
    requires Occurs(head + tail, hay)
    ensures Occurs(head, hay)
  {
    var i: nat :| IsAt(hay, head + tail, i);
    assert hay[i..i + |head|] == hay[i..i + |head + tail|][..|head|];
    assert IsAt(hay, head, i);
  }

  /** Only an `application/...` type is recognised as an archive. */
  lemma RecognisedIsApplication(contentType: string)
    requires FileExtensionFromHeader(contentType) != UnknownExtension
    ensures Occurs(Application, contentType)
  {
    if Occurs(ZipType, contentType) {
      OccursHead(Application, "zip", contentType);
    } else if Occurs(SevenZipType, contentType) {
      OccursHead(Application, "x-7z-compressed", contentType);
    } else if Occurs(RarType, contentType) {
      OccursHead(Application, "x-rar-compressed", contentType);
    } else {
      OccursHead(Application, "vnd.rar", contentType);
    }
  }

  /** The download procedures the installer knows. */
  datatype HostType = ModDB | Github | GoFile | Unknown

  /** `DetermineHostType(hostName)`. */
  function DetermineHostType(hostName: string): (t: HostType)
    ensures t == ModDB <==> Occurs("moddb", hostName)
    ensures t == Github <==> !Occurs("moddb", hostName) && Occurs("github", hostName)
    ensures t == GoFile <==>
      !Occurs("moddb", hostName) && !Occurs("github", hostName) && Occurs("gofile", hostName)
    ensures t == Unknown <==>
      !Occurs("moddb", hostName) && !Occurs("github", hostName) && !Occurs("gofile", hostName)
  {
    if Contains(hostName, "moddb") then ModDB
    else if Contains(hostName, "github") then Github
    else if Contains(hostName, "gofile") then GoFile
    else Unknown
  }

  /** A link that was not cut has an empty host, which no download procedure
      accepts: such an entry always takes the unknown-host error path. */
  lemma UncutLinkIsUnknown(link: string)
    requires !HasThirdSlash(link)
    ensures DetermineHostType(FromLink(link).host) == Unknown
  {
    NothingOccursInEmpty("moddb");
    NothingOccursInEmpty("github");
    NothingOccursInEmpty("gofile");
  }

  lemma NothingOccursInEmpty(needle: string)
    requires needle != []
    ensures !Occurs(needle, "")
  {
  }
}

=== FILE: error_ledger.dfy ===
/** The line `LogError` appends to the error mod list for an entry that
    failed: its full file name, a `----` marker, the rejoined link, the inner
    paths joined with `:`, the creator, the name, the original link and the
    left-over field, tab-separated and ended by a line feed.  The file writes
    themselves are not modelled; only the text of the line is. */
module ErrorLedger {
  import opened CustomStrings
  import opened NosString
  import opened HostPaths
  import opened Decimal
  import opened ModInfos
  import opened Manifest

  /** The loop that builds `pathList`, as written: each inner path, followed
      by `:` unless it is the last one. */
  method PathList(paths: seq<string>) returns (pathList: string)
    ensures pathList == Join(paths, ':')
  {
    pathList := [];
    var i := 0;
    while i < |paths|
      invariant 0 <= i <= |paths|
      invariant i == 0 ==> pathList == []
      invariant 0 < i ==> pathList == Join(paths[..i], ':') + (if i < |paths| then ":" else "")
    {
      if i > 0 {
        assert paths[..i + 1] == paths[..i] + [paths[i]];
        JoinSnoc(paths[..i], paths[i], ':');
      } else {
        assert paths[..1] == [paths[0]];
      }
      pathList := pathList + paths[i];
      if i != |paths| - 1 {
        pathList := pathList + ":";
      }
      i := i + 1;
    }
    assert paths[..i] == paths;
  }

  // The fields an entry of each kind has; the ones it lacks are the empty
  // strings and empty link a default-constructed field holds.

  function LinkOf(m: ModInfo): HostPath {
    if m.Seperator? then NoHostPath else m.link
  }

  function InsidePathsOf(m: ModInfo): seq<string> {
    if m.Seperator? then [] else m.insidePaths
  }

  function CreatorNameOf(m: ModInfo): string {
    if m.Standard? then m.creatorName else ""
  }

  function OriginalLinkOf(m: ModInfo): string {
    if m.Standard? then m.originalLink else ""
  }

  function LeftOverOf(m: ModInfo): string {
    if m.Standard? then m.leftOver else ""
  }

  /** The columns of the error mod list line, in order. */
  function ErrorFields(m: ModInfo): (fs: seq<string>)
    ensures |fs| == 8
  {
    [FullFileName(m, true), "----", Rejoin(LinkOf(m)), Join(InsidePathsOf(m), ':'),
     CreatorNameOf(m), m.outName, OriginalLinkOf(m), LeftOverOf(m)]
  }

  /** The line written for `m`, with the format's literal separators. */
  function ErrorListLine(m: ModInfo): (line: string)
    ensures line == Join(ErrorFields(m), '\t') + "\n"
  {
    var fs := ErrorFields(m);
    var name, link, paths := fs[0], fs[2], fs[3];
    var creator, outName, original, leftOver := fs[4], fs[5], fs[6], fs[7];
    JoinEight(name, "----", link, paths, creator, outName, original, leftOver);
    assert fs == [name, "----", link, paths, creator, outName, original, leftOver];
    name + "\t" + "----" + "\t" + link + "\t" + paths + "\t" + creator + "\t" + outName + "\t" + original + "\t" + leftOver + "\n"
  }

  /** Eight columns joined with tabs. */
  lemma JoinEight(a: string, b: string, c: string, d: string, e: string, f: string, g: string, h: string)
    ensures Join([a, b, c, d, e, f, g, h], '\t')
      == a + "\t" + b + "\t" + c + "\t" + d + "\t" + e + "\t" + f + "\t" + g + "\t" + h
  {
    JoinSnoc([a], b, '\t');
    assert [a] + [b] == [a, b];
    JoinSnoc([a, b], c, '\t');
    assert [a, b] + [c] == [a, b, c];
    JoinSnoc([a, b, c], d, '\t');
    assert [a, b, c] + [d] == [a, b, c, d];
    JoinSnoc([a, b, c, d], e, '\t');
    assert [a, b, c, d] + [e] == [a, b, c, d, e];
    JoinSnoc([a, b, c, d, e], f, '\t');
    assert [a, b, c, d, e] + [f] == [a, b, c, d, e, f];
    JoinSnoc([a, b, c, d, e, f], g, '\t');
    assert [a, b, c, d, e, f] + [g] == [a, b, c, d, e, f, g];
    JoinSnoc([a, b, c, d, e, f, g], h, '\t');
    assert [a, b, c, d, e, f, g] + [h] == [a, b, c, d, e, f, g, h];
  }

  /** A line of tab-free columns splits back into its columns. */
  lemma ErrorListLineSplits(m: ModInfo)
    requires forall k :: 0 <= k < 8 ==> '\t' !in ErrorFields(m)[k]
    ensures var line := ErrorListLine(m);
      Split(line[..|line| - 1], '\t') == ErrorFields(m)
  {
    var line := ErrorListLine(m);
    assert line[..|line| - 1] == Join(ErrorFields(m), '\t');
    SplitJoin(ErrorFields(m), '\t');
  }

  // ---------------------------------------------------------------------------
  // Reading a ledger line back
  // ---------------------------------------------------------------------------

  /** Joining single-spaced pieces with a non-whitespace delimiter keeps the
      result single-spaced. */
  lemma {:induction false} JoinSingleSpaced(parts: seq<string>, d: char)
    requires d !in Whitespace
    requires forall k :: 0 <= k < |parts| ==> SingleSpaced(parts[k])
    ensures SingleSpaced(Join(parts, d))
    decreases |parts|
  {
    if |parts| > 1 {
      JoinSingleSpaced(parts[1..], d);
      assert SingleSpaced([d]);
      SingleSpacedConcat(parts[0], [d]);
      SingleSpacedConcat(parts[0] + [d], Join(parts[1..], d));
    }
  }

  /** The `pathList` column of decoded inner paths is a reduced field that
      splits back into the same paths. */
  lemma PathListReadsBack(paths: seq<string>)
    requires DecodedPaths(paths)
    ensures ReducedForm(Join(paths, ':'))
    ensures Split(Join(paths, ':'), ':') == paths
    ensures '\t' !in Join(paths, ':')
  {
    JoinSingleSpaced(paths, ':');
    JoinFirst(paths, ':');
    JoinLast(paths, ':');
    SplitJoin(paths, ':');
  }

  /** The columns of a decoded standard entry hold no tab, whatever
      tab-free extension its download set. */
  lemma DecodedFieldsTabFree(c: Ctor, counter: nat, ext: string)
    requires c.StandardCtor? && DecodedPaths(c.insidePaths)
    requires ReducedForm(c.link) && ReducedForm(c.creatorName) && ReducedForm(c.outName)
    requires ReducedForm(c.originalLink) && ReducedForm(c.leftOver)
    requires '\t' !in ext
    ensures forall k :: 0 <= k < 8 ==>
      '\t' !in ErrorFields(SetFileExtension(Construct(c, counter).mod, ext))[k]
  {
    var m := Standard(counter, FromLink(c.link), c.insidePaths, c.creatorName, c.outName,
                      c.originalLink, c.leftOver, ext);
    assert SetFileExtension(Construct(c, counter).mod, ext) == m;
    var name := NatToString(counter) + "- " + c.outName + " " + c.creatorName + ext;
    assert FullFileName(m, true) == name;
    NameTabFree(NatToString(counter), c.outName, c.creatorName, ext);
    var link := Rejoin(FromLink(c.link));
    assert link == c.link || link == "";
    PathListReadsBack(c.insidePaths);
    assert ErrorFields(m) == [name, "----", link, Join(c.insidePaths, ':'), c.creatorName,
                              c.outName, c.originalLink, c.leftOver];
  }

  /** A standard entry's file name holds no tab when its parts hold none. */
  lemma NameTabFree(digits: string, outName: string, creator: string, ext: string)
    requires AllDigits(digits)
    requires '\t' !in outName && '\t' !in creator && '\t' !in ext
    ensures '\t' !in digits + "- " + outName + " " + creator + ext
  {
    assert '\t' !in digits by {
      forall k | 0 <= k < |digits| ensures digits[k] != '\t' {
        assert IsDigit(digits[k]);
      }
    }
  }

  /** An entry decoded from a modpack line, whatever tab-free extension its
      download set, is written to the error mod list as a line whose columns
      split back out, and whose columns after the first two decode to an
      entry equal to the original: same index, link, inner paths, creator,
      name, original link and left-over. */
  lemma ErrorLineReadsBack(line: string, counter: nat, ext: string)
    requires ParseLine(line).Success? && ParseLine(line).value.StandardCtor?
    requires '\t' !in ext
    ensures var c := ParseLine(line).value;
      var m := SetFileExtension(Construct(c, counter).mod, ext);
      var written := ErrorListLine(m);
      && Split(written[..|written| - 1], '\t') == ErrorFields(m)
      && ParseLine(Join(ErrorFields(m)[2..], '\t')).Success?
      && Construct(ParseLine(Join(ErrorFields(m)[2..], '\t')).value, counter).mod == Construct(c, counter).mod
  {
    EntryReadsBack(ParseLine(line).value, counter, ext);
  }

  /** The same for any standard entry whose fields are in the form decoding
      leaves them in. */
  lemma EntryReadsBack(c: Ctor, counter: nat, ext: string)
    requires c.StandardCtor? && DecodedPaths(c.insidePaths)
    requires ReducedForm(c.link) && ReducedForm(c.creatorName) && ReducedForm(c.outName)
    requires ReducedForm(c.originalLink) && ReducedForm(c.leftOver)
    requires '\t' !in ext
    ensures var m := SetFileExtension(Construct(c, counter).mod, ext);
      var written := ErrorListLine(m);
      && Split(written[..|written| - 1], '\t') == ErrorFields(m)
      && ParseLine(Join(ErrorFields(m)[2..], '\t')).Success?
      && Construct(ParseLine(Join(ErrorFields(m)[2..], '\t')).value, counter).mod == Construct(c, counter).mod
  {
    var m := SetFileExtension(Construct(c, counter).mod, ext);
    DecodedFieldsTabFree(c, counter, ext);
    ErrorListLineSplits(m);
    var link := Rejoin(FromLink(c.link));
    var pathList := Join(c.insidePaths, ':');
    var rest := [link, pathList, c.creatorName, c.outName, c.originalLink, c.leftOver];
    assert ErrorFields(m)[2..] == rest;
    ParseLineFields(rest);
    // Each column is already in reduced form, so decoding leaves it alone.
    assert ReducedForm(link) by {
      assert link == c.link || link == "";
    }
    ReducedFixpoint(link);
    FromLinkRejoin(c.link);
    PathListReadsBack(c.insidePaths);
    ReducedFixpoint(pathList);
    NormalisePathsFixed(c.insidePaths);
    ReducedFixpoint(c.creatorName);
    ReducedFixpoint(c.outName);
    ReducedFixpoint(c.originalLink);
    ReducedFixpoint(c.leftOver);
  }
}

=== FILE: host_path.dfy ===
/** `HostPath(const std::string& link)`: a download link cut at its third
    `/` into the host part (scheme and authority, e.g. `https://www.moddb.com`)
    and the path part starting with that slash. */
module HostPaths {
  datatype HostPath = HostPath(host: string, path: string)

  /** What the default constructor leaves: both parts empty. */
  const NoHostPath := HostPath("", "")

  /** The number of `/` characters in `s`. */
  function SlashCount(s: string): (n: nat)
    ensures n <= |s|
    decreases |s|
  {
    if s == [] then 0
    else SlashCount(s[..|s| - 1]) + (if s[|s| - 1] == '/' then 1 else 0)
  }

  /** Counting the slashes of a prefix one character further. */
  lemma SlashCountStep(s: string, i: nat)
    requires i < |s|
    ensures SlashCount(s[..i + 1]) == SlashCount(s[..i]) + (if s[i] == '/' then 1 else 0)
  {
    assert s[..i + 1][..i] == s[..i];
  }

  /** A longer prefix holds at least as many slashes. */
  lemma {:induction false} SlashCountMonotone(s: string, i: nat, j: nat)
    requires i <= j <= |s|
    ensures SlashCount(s[..i]) <= SlashCount(s[..j])
    decreases j - i
  {
    if i < j {
      SlashCountStep(s, j - 1);
      SlashCountMonotone(s, i, j - 1);
    }
  }

  /** The link is cut: it has a third slash and that slash is not its last
      character.  Equivalently, all but its last character hold three slashes. */
  predicate HasThirdSlash(link: string) {
    |link| > 0 && SlashCount(link[..|link| - 1]) >= 3
  }

  /** The loop of the constructor from position `i` on, with `count` the
      slashes seen in `link[..i]`.  When an iteration starts with three
      slashes seen, the third one is at `i - 1`: the host is `link[..i - 1]`
      and the path `link[i - 1..]`. */
  function Scan(link: string, i: nat, count: nat): (r: HostPath)
    requires i <= |link|
    requires count == SlashCount(link[..i]) && count <= 3
    requires i > 0 ==> SlashCount(link[..i - 1]) <= 2
    ensures HasThirdSlash(link) ==>
      && r.host + r.path == link
      && SlashCount(r.host) == 2
      && |r.path| >= 2 && r.path[0] == '/'
    ensures !HasThirdSlash(link) ==> r == NoHostPath
    decreases |link| - i
  {
    if i >= |link| then
      NoHostPath
    else if count == 3 then
      SlashCountMonotone(link, i, |link| - 1);
      SlashCountStep(link, i - 1);
      assert link[..i - 1] + link[i - 1..] == link;
      HostPath(link[..i - 1], link[i - 1..])
    else
      SlashCountStep(link, i);
      Scan(link, i + 1, if link[i] == '/' then count + 1 else count)
  }

  /** `HostPath(link)`: split at the third slash when it is not the last
      character; otherwise both parts stay empty. */
  function FromLink(link: string): (r: HostPath)
    ensures HasThirdSlash(link) ==>
      && r.host + r.path == link
      && SlashCount(r.host) == 2
      && |r.path| >= 2 && r.path[0] == '/'
    ensures !HasThirdSlash(link) ==> r == NoHostPath
    ensures r.host == "" <==> r == NoHostPath
  {
    assert link[..0] == [];
    Scan(link, 0, 0)
  }

  /** Position `p` holds the third slash of `link`. */
  predicate ThirdSlashAt(link: string, p: nat) {
    p < |link| && link[p] == '/' && SlashCount(link[..p]) == 2
  }

  /** The cut happens exactly when some third slash is followed by another
      character, and then the path starts at that slash. */
  lemma HasThirdSlashIff(link: string)
    ensures HasThirdSlash(link) <==> exists p: nat :: p + 1 < |link| && ThirdSlashAt(link, p)
    ensures HasThirdSlash(link) ==> ThirdSlashAt(link, |FromLink(link).host|)
  {
    if HasThirdSlash(link) {
      var r := FromLink(link);
      var p := |r.host|;
      assert link[..p] == r.host && link[p] == r.path[0];
      assert p + 1 < |link| && ThirdSlashAt(link, p);
    }
    if exists p: nat :: p + 1 < |link| && ThirdSlashAt(link, p) {
      var p: nat :| p + 1 < |link| && ThirdSlashAt(link, p);
      SlashCountStep(link, p);
      SlashCountMonotone(link, p + 1, |link| - 1);
    }
  }

  /** The parts rejoined: `Link.Host + Link.Path` as the error mod list writes it. */
  function Rejoin(hp: HostPath): string {
    hp.host + hp.path
  }

  /** Cutting the rejoined link again gives the same parts. */
  lemma FromLinkRejoin(link: string)
    ensures FromLink(Rejoin(FromLink(link))) == FromLink(link)
  {
    var r := FromLink(link);
    if HasThirdSlash(link) {
      assert Rejoin(r) == link;
    } else {
      assert Rejoin(r) == "";
    }
  }
}

=== FILE: manifest.dfy ===
/** Decoding the modpack maker list: one line per entry, tab-separated
    fields, inner paths separated by `:`.  `ParseLine` turns a line into the
    constructor call it makes; `ParseLines` runs the constructors in file
    order, threading the index counter as `ModpackMakerFile_Parse` does. */
module Manifest {
  import opened Wrappers
  import opened CustomStrings
  import opened NosString
  import opened ModInfos

  /** The field reducer of the decoder: the library's `Reduce` with its
      default arguments, taken to be `reduce` with a single-space fill and
      space/tab whitespace. */
  function Reduced(s: string): (r: string)
    ensures ReducedForm(r)
  {
    ReduceSingleSpaced(s);
    Reduce(s, Fill, Whitespace)
  }

  /** What a reduced field looks like: no tab, no two adjacent whitespace
      characters, no leading or trailing whitespace. */
  predicate ReducedForm(s: string) {
    SingleSpaced(s) && Bounded(s, Whitespace)
  }

  /** Reducing a field of that form changes nothing. */
  lemma ReducedFixpoint(s: string)
    requires ReducedForm(s)
    ensures Reduced(s) == s
  {
    ReduceFixpoint(s);
  }

  // ---------------------------------------------------------------------------
  // Inner paths
  // ---------------------------------------------------------------------------

  /** The parts that denote the root folder of the archive. */
  predicate IsRootToken(p: string) {
    p == "0" || p == "\\"
  }

  /** A normalised inner path: non-empty, starting and ending with `\`. */
  predicate IsNormalPath(q: string) {
    |q| >= 1 && q[0] == '\\' && q[|q| - 1] == '\\'
  }

  /** One iteration of the normalising loop: a root token becomes `\`;
      otherwise a `\` is put in front unless the part starts with one (an
      empty part has no first character and gets one) and a `\` is put at
      the end unless it already ends with one. */
  function NormalisePart(p: string): (q: string)
    ensures IsNormalPath(q)
    ensures IsRootToken(p) ==> q == "\\"
    ensures !IsRootToken(p) ==> q in {p, "\\" + p, p + "\\", "\\" + p + "\\"}
    ensures IsNormalPath(p) ==> q == p
    ensures p == [] ==> q == "\\"
    ensures !IsRootToken(p) && p != [] && p[0] == '\\' ==> q == p || q == p + "\\"
    ensures !IsRootToken(p) && p != [] && p[|p| - 1] == '\\' ==> q == p || q == "\\" + p
  {
    if IsRootToken(p) then "\\"
    else
      var front := if p == [] || p[0] != '\\' then "\\" + p else p;
      if front[|front| - 1] != '\\' then front + "\\" else front
  }

  /** Some part denotes the root. */
  predicate HasRootToken(parts: seq<string>) {
    exists k :: 0 <= k < |parts| && IsRootToken(parts[k])
  }

  /** Every part normalised, in order. */
  function NormaliseEach(parts: seq<string>): (qs: seq<string>)
    ensures |qs| == |parts|
    ensures forall k :: 0 <= k < |parts| ==> qs[k] == NormalisePart(parts[k])
    decreases |parts|
  {
    if parts == [] then [] else [NormalisePart(parts[0])] + NormaliseEach(parts[1..])
  }

  /** The inner paths of an entry: every part normalised, and a leading `\`
      when no part denoted the root. */
  function NormalisePaths(parts: seq<string>): (paths: seq<string>)
    ensures forall k :: 0 <= k < |paths| ==> IsNormalPath(paths[k])
    ensures "\\" in paths
    ensures HasRootToken(parts) ==>
      && |paths| == |parts|
      && forall k :: 0 <= k < |parts| ==> paths[k] == NormalisePart(parts[k])
    ensures !HasRootToken(parts) ==>
      && |paths| == |parts| + 1 && paths[0] == "\\"
      && forall k :: 0 <= k < |parts| ==> paths[k + 1] == NormalisePart(parts[k])
  {
    var each := NormaliseEach(parts);
    if HasRootToken(parts) then
      RootKept(parts);
      each
    else
      ["\\"] + each
  }

  /** A root token among the parts leaves a `\` among the normalised parts. */
  lemma RootKept(parts: seq<string>)
    requires HasRootToken(parts)
    ensures "\\" in NormaliseEach(parts)
  {
    var k :| 0 <= k < |parts| && IsRootToken(parts[k]);
    assert NormaliseEach(parts)[k] == "\\";
  }

  /** What the decoder leaves as inner paths: at least one, a root among
      them, each normalised, single-spaced and free of `:`. */
  predicate DecodedPaths(paths: seq<string>) {
    && |paths| >= 1 && "\\" in paths
    && forall k :: 0 <= k < |paths| ==>
      IsNormalPath(paths[k]) && SingleSpaced(paths[k]) && ':' !in paths[k]
  }

  /** The pieces of a single-spaced string are single-spaced. */
  lemma {:induction false} SplitSingleSpaced(s: string, d: char)
    requires SingleSpaced(s)
    ensures forall k :: 0 <= k < |Split(s, d)| ==> SingleSpaced(Split(s, d)[k])
    decreases |s|
  {
    if s != [] {
      SingleSpacedSlice(s, 1, |s|);
      SplitSingleSpaced(s[1..], d);
      if s[0] != d {
        var h := Split(s[1..], d)[0];
        SplitHeadPrefix(s[1..], d);
        assert [s[0]] + h == s[..1 + |h|];
        SingleSpacedSlice(s, 0, 1 + |h|);
      }
    }
  }

  /** Normalising a part adds only backslashes, which are neither whitespace
      nor `:`. */
  lemma NormalisePartKeeps(p: string)
    requires SingleSpaced(p) && ':' !in p
    ensures SingleSpaced(NormalisePart(p)) && ':' !in NormalisePart(p)
  {
    var slash := "\\";
    assert SingleSpaced(slash);
    SingleSpacedConcat(slash, p);
    SingleSpacedConcat(p, slash);
    SingleSpacedConcat(slash + p, slash);
  }

  /** Normalising single-spaced, `:`-free parts gives the decoded shape. */
  lemma NormalisePathsKeeps(parts: seq<string>)
    requires forall k :: 0 <= k < |parts| ==> SingleSpaced(parts[k]) && ':' !in parts[k]
    ensures DecodedPaths(NormalisePaths(parts))
  {
    var paths := NormalisePaths(parts);
    forall k | 0 <= k < |paths|
      ensures IsNormalPath(paths[k]) && SingleSpaced(paths[k]) && ':' !in paths[k]
    {
      if HasRootToken(parts) {
        NormalisePartKeeps(parts[k]);
      } else if k == 0 {
        assert paths[k] == "\\";
        assert SingleSpaced("\\");
      } else {
        NormalisePartKeeps(parts[k - 1]);
      }
    }
  }

  /** The inner paths decoded from a single-spaced field have the decoded shape. */
  lemma DecodedPathsOf(w: string)
    requires SingleSpaced(w)
    ensures DecodedPaths(NormalisePaths(Split(w, ':')))
  {
    SplitSingleSpaced(w, ':');
    SplitPiecesFree(w, ':');
    NormalisePathsKeeps(Split(w, ':'));
  }

  /** Paths that are all normal and include a root are left as they are. */
  lemma NormalisePathsFixed(paths: seq<string>)
    requires forall k :: 0 <= k < |paths| ==> IsNormalPath(paths[k])
    requires "\\" in paths
    ensures NormalisePaths(paths) == paths
  {
    var k :| 0 <= k < |paths| && paths[k] == "\\";
    assert IsRootToken(paths[k]);
  }

  /** Normalising normalised paths changes nothing: the result always holds
      a root part, and every part is already normal. */
  lemma NormalisePathsIdempotent(parts: seq<string>)
    ensures NormalisePaths(NormalisePaths(parts)) == NormalisePaths(parts)
  {
    NormalisePathsFixed(NormalisePaths(parts));
  }

  /** A root token among some parts and one more. */
  lemma HasRootTokenSnoc(parts: seq<string>, p: string)
    ensures HasRootToken(parts + [p]) <==> HasRootToken(parts) || IsRootToken(p)
  {
    if HasRootToken(parts) {
      var k :| 0 <= k < |parts| && IsRootToken(parts[k]);
      assert (parts + [p])[k] == parts[k];
    }
    if IsRootToken(p) {
      assert (parts + [p])[|parts|] == p;
    }
  }

  /** The loop over `pathArray` followed by the root insertion, as written:
      each part is normalised in place and `hasRoot` records a root token. */
  method NormaliseInnerPaths(parts: seq<string>) returns (paths: seq<string>)
    ensures paths == NormalisePaths(parts)
  {
    var pathArray := parts;
    var hasRoot := false;
    var i := 0;
    while i < |pathArray|
      invariant 0 <= i <= |pathArray| == |parts|
      invariant forall k :: 0 <= k < i ==> pathArray[k] == NormalisePart(parts[k])
      invariant forall k :: i <= k < |parts| ==> pathArray[k] == parts[k]
      invariant hasRoot <==> HasRootToken(parts[..i])
    {
      assert parts[..i + 1] == parts[..i] + [parts[i]];
      HasRootTokenSnoc(parts[..i], parts[i]);
      var path := pathArray[i];
      if path == "0" || path == "\\" {
        path := "\\";
        hasRoot := true;
      } else if path == [] || path[0] != '\\' {
        path := "\\" + path;
      }
      if path[|path| - 1] != '\\' {
        path := path + "\\";
      }
      assert path == NormalisePart(parts[i]);
      pathArray := pathArray[i := path];
      i := i + 1;
    }
    assert parts[..i] == parts;
    assert pathArray == NormaliseEach(parts);
    if !hasRoot {
      pathArray := ["\\"] + pathArray;
    }
    paths := pathArray;
  }

  // ---------------------------------------------------------------------------
  // ParseLine
  // ---------------------------------------------------------------------------

  /** Why a line could not be decoded: a line with two to five fields makes
      `ParseLine` read fields that the split did not produce. */
  datatype LineError = MissingFields(fieldCount: nat)

  /** The number of fields of the standard entry layout:
      link, inner paths, creator, name, original link, left-over. */
  const StandardFieldCount := 6

  /** Every field reduced, in order. */
  function ReduceAll(fields: seq<string>): (words: seq<string>)
    ensures |words| == |fields|
    ensures forall k :: 0 <= k < |fields| ==> words[k] == Reduced(fields[k])
    decreases |fields|
  {
    if fields == [] then [] else [Reduced(fields[0])] + ReduceAll(fields[1..])
  }

  /** `ParseLine(line)`: the constructor call a line decodes to. */
  function ParseLine(line: string): (r: Result<Ctor, LineError>)
    ensures r.Success? ==> !r.value.CustomCtor?
    ensures r.Failure? ==> 2 <= r.error.fieldCount < StandardFieldCount
    ensures r.Success? ==> ReducedForm(r.value.outName)
    ensures r.Success? && r.value.StandardCtor? ==>
      && ReducedForm(r.value.link) && ReducedForm(r.value.creatorName)
      && ReducedForm(r.value.originalLink) && ReducedForm(r.value.leftOver)
      && DecodedPaths(r.value.insidePaths)
  {
    var fields := Split(line, '\t');
    var words := ReduceAll(fields);
    if |words| == 1 then
      Success(SeperatorCtor(words[0]))
    else if |words| < StandardFieldCount then
      Failure(MissingFields(|words|))
    else
      DecodedPathsOf(words[1]);
      var paths := NormalisePaths(Split(words[1], ':'));
      Success(StandardCtor(words[0], paths, words[2], words[3], words[4], words[5]))
  }

  /** The decoding decided by the number of tabs: none gives a separator
      named by the reduced line, one to four is an error, five or more a
      standard entry. */
  lemma ParseLineByTabs(line: string)
    ensures var tabs := multiset(line)['\t'];
      && (tabs == 0 ==> ParseLine(line) == Success(SeperatorCtor(Reduced(line))))
      && (1 <= tabs < StandardFieldCount - 1 ==> ParseLine(line) == Failure(MissingFields(tabs + 1)))
      && (tabs >= StandardFieldCount - 1 ==> ParseLine(line).Success? && ParseLine(line).value.StandardCtor?)
  {
    SplitCount(line, '\t');
    if multiset(line)['\t'] == 0 {
      JoinSplit(line, '\t');
    }
  }

  /** A line made of tab-free fields decodes field by field: the link,
      creator, name, original link and left-over are the reduced fields, and
      the inner paths are the normalised `:`-pieces of the reduced second
      field.  Fields after the sixth are ignored. */
  lemma ParseLineFields(fs: seq<string>)
    requires |fs| >= StandardFieldCount
    requires forall k :: 0 <= k < |fs| ==> '\t' !in fs[k]
    ensures ParseLine(Join(fs, '\t')) == Success(StandardCtor(
      Reduced(fs[0]), NormalisePaths(Split(Reduced(fs[1]), ':')),
      Reduced(fs[2]), Reduced(fs[3]), Reduced(fs[4]), Reduced(fs[5])))
  {
    var line := Join(fs, '\t');
    SplitJoin(fs, '\t');
    assert Split(line, '\t') == fs;
    var words := ReduceAll(fs);
    assert words[0] == Reduced(fs[0]) && words[1] == Reduced(fs[1]) && words[2] == Reduced(fs[2]);
    assert words[3] == Reduced(fs[3]) && words[4] == Reduced(fs[4]) && words[5] == Reduced(fs[5]);
  }

  /** A tab-free line decodes to a separator named by the reduced line. */
  lemma ParseLineSeparator(line: string)
    requires '\t' !in line
    ensures ParseLine(line) == Success(SeperatorCtor(Reduced(line)))
  {
    SplitFree(line, '\t');
  }

  // ---------------------------------------------------------------------------
  // The whole list
  // ---------------------------------------------------------------------------

  /** `std::getline` over the file: the text cut at line feeds, where a final
      line feed does not start another line. */
  function Lines(text: string): (ls: seq<string>)
    ensures forall k :: 0 <= k < |ls| ==> '\n' !in ls[k]
    ensures ls == [] <==> text == []
    ensures text == Join(ls, '\n') + (if text != [] && text[|text| - 1] == '\n' then "\n" else "")
  {
    var pieces := Split(text, '\n');
    SplitPiecesFree(text, '\n');
    JoinSplit(text, '\n');
    LinesShape(text);
    if pieces[|pieces| - 1] == [] then pieces[..|pieces| - 1] else pieces
  }

  lemma LinesShape(text: string)
    ensures var pieces := Split(text, '\n');
      var endsInFeed := text != [] && text[|text| - 1] == '\n';
      && (pieces[|pieces| - 1] == [] <==> text == [] || endsInFeed)
      && (endsInFeed ==> Join(pieces[..|pieces| - 1], '\n') == text[..|text| - 1])
      && (text == [] ==> pieces[..|pieces| - 1] == [])
  {
    var pieces := Split(text, '\n');
    JoinSplit(text, '\n');
    if text != [] && text[|text| - 1] == '\n' {
      var t := text[..|text| - 1];
      assert text == t + ['\n'];
      SplitSnocDelim(t, '\n');
      JoinSplit(t, '\n');
      assert pieces[..|pieces| - 1] == Split(t, '\n');
    } else if text != [] && pieces[|pieces| - 1] == [] {
      assert false;
    }
  }

  /** A line that failed and where. */
  datatype FileError = BadLine(lineIndex: nat, error: LineError)

  /** The position of the first failure among `rs`, if any. */
  function FirstFailure<T, E>(rs: seq<Result<T, E>>): (r: Option<nat>)
    ensures r.Some? ==>
      && r.value < |rs| && rs[r.value].Failure?
      && forall k :: 0 <= k < r.value ==> rs[k].Success?
    ensures r.None? ==> forall k :: 0 <= k < |rs| ==> rs[k].Success?
    decreases |rs|
  {
    if rs == [] then None
    else if rs[0].Failure? then Some(0)
    else
      match FirstFailure(rs[1..])
      case None => None
      case Some(i) => Some(i + 1)
  }

  /** Every line decoded, in order. */
  function DecodeAll(lines: seq<string>): (rs: seq<Result<Ctor, LineError>>)
    ensures |rs| == |lines|
    ensures AllNumbered(rs)
    decreases |lines|
  {
    if lines == [] then [] else [ParseLine(lines[0])] + DecodeAll(lines[1..])
  }

  lemma {:induction false} DecodeAllAt(lines: seq<string>, k: nat)
    requires k < |lines|
    ensures DecodeAll(lines)[k] == ParseLine(lines[k])
    decreases k
  {
    if k > 0 {
      DecodeAllAt(lines[1..], k - 1);
      assert lines[1..][k - 1] == lines[k];
    }
  }

  /** Every decoded constructor call takes a number. */
  predicate AllNumbered(rs: seq<Result<Ctor, LineError>>) {
    forall k :: 0 <= k < |rs| && rs[k].Success? ==> rs[k].value.Numbered()
  }

  /** The constructor calls of lines that all decoded. */
  function Ctors(rs: seq<Result<Ctor, LineError>>): (cs: seq<Ctor>)
    requires forall k :: 0 <= k < |rs| ==> rs[k].Success?
    ensures |cs| == |rs|
    decreases |rs|
  {
    if rs == [] then [] else [rs[0].value] + Ctors(rs[1..])
  }

  lemma {:induction false} CtorsAt(rs: seq<Result<Ctor, LineError>>, k: nat)
    requires forall k :: 0 <= k < |rs| ==> rs[k].Success?
    requires k < |rs|
    ensures Ctors(rs)[k] == rs[k].value
    decreases k
  {
    if k > 0 {
      CtorsAt(rs[1..], k - 1);
    }
  }

  /** Decoded lines assembled in order with the counter starting at
      `counter`; the first line that could not be decoded stops the list. */
  function Assemble(rs: seq<Result<Ctor, LineError>>, counter: nat): (r: Result<Batch, FileError>)
    requires AllNumbered(rs)
    ensures r.Success? <==> forall k :: 0 <= k < |rs| ==> rs[k].Success?
    ensures r.Success? ==> |r.value.mods| == |rs| && r.value.next == counter + |rs|
    ensures r.Failure? ==>
      && r.error.lineIndex < |rs|
      && rs[r.error.lineIndex] == Failure(r.error.error)
      && forall k :: 0 <= k < r.error.lineIndex ==> rs[k].Success?
  {
    match FirstFailure(rs)
    case Some(i) => Failure(BadLine(i, rs[i].error))
    case None =>
      CtorsNumbered(rs, |rs|);
      assert Ctors(rs)[..|rs|] == Ctors(rs);
      AllNumberedCount(Ctors(rs));
      Success(ConstructAll(Ctors(rs), counter))
  }

  /** The lines decoded, then their constructors run in order with the
      counter starting at `counter`. */
  function ParseLines(lines: seq<string>, counter: nat): (r: Result<Batch, FileError>)
    ensures r.Success? ==> |r.value.mods| == |lines| && r.value.next == counter + |lines|
    ensures r.Failure? ==> r.error.lineIndex < |lines|
  {
    Assemble(DecodeAll(lines), counter)
  }

  /** A decoding fails exactly when some line fails, and then it names the
      first failing line and its error. */
  lemma ParseLinesFailure(lines: seq<string>, counter: nat)
    ensures ParseLines(lines, counter).Success? <==>
      forall k :: 0 <= k < |lines| ==> ParseLine(lines[k]).Success?
    ensures var r := ParseLines(lines, counter);
      r.Failure? ==>
        && ParseLine(lines[r.error.lineIndex]) == Failure(r.error.error)
        && forall k :: 0 <= k < r.error.lineIndex ==> ParseLine(lines[k]).Success?
  {
    forall k | 0 <= k < |lines| ensures DecodeAll(lines)[k] == ParseLine(lines[k]) {
      DecodeAllAt(lines, k);
    }
  }

  /** Entry k of an assembled list is decoded line k's constructor run with
      the counter at `counter + k`. */
  lemma AssembleAt(rs: seq<Result<Ctor, LineError>>, counter: nat, k: nat)
    requires AllNumbered(rs)
    requires Assemble(rs, counter).Success? && k < |rs|
    ensures rs[k].Success?
    ensures Assemble(rs, counter).value.mods[k] == Construct(rs[k].value, counter + k).mod
  {
    assert forall i :: 0 <= i < |rs| ==> rs[i].Success?;
    var cs := Ctors(rs);
    assert FirstFailure(rs).None?;
    CtorsAt(rs, k);
    CtorsNumbered(rs, k);
    AllNumberedCount(cs[..k]);
    ConstructAllAt(cs, counter, k);
  }

  /** Entry k of a decoded list is line k's constructor run with the counter
      at `counter + k`: the indices are consecutive, without gaps or repeats. */
  lemma ParseLinesAt(lines: seq<string>, counter: nat, k: nat)
    requires ParseLines(lines, counter).Success? && k < |lines|
    ensures ParseLine(lines[k]).Success?
    ensures ParseLines(lines, counter).value.mods[k] == Construct(ParseLine(lines[k]).value, counter + k).mod
    ensures ParseLines(lines, counter).value.mods[k].Numbered()
    ensures ParseLines(lines, counter).value.mods[k].index == counter + k
  {
    AssembleAt(DecodeAll(lines), counter, k);
    DecodeAllAt(lines, k);
  }

  /** The constructor calls of a prefix all take a number. */
  lemma CtorsNumbered(rs: seq<Result<Ctor, LineError>>, k: nat)
    requires forall i :: 0 <= i < |rs| ==> rs[i].Success?
    requires AllNumbered(rs)
    requires k <= |rs|
    ensures forall i :: 0 <= i < k ==> Ctors(rs)[..k][i].Numbered()
  {
    forall i | 0 <= i < k ensures Ctors(rs)[..k][i].Numbered() {
      CtorsAt(rs, i);
    }
  }

  /** `ModpackMakerFile_Parse`: the file's lines decoded with the counter at its
      initial value. */
  function ParseFile(text: string): (r: Result<Batch, FileError>)
    ensures r.Success? ==> r.value.next == FirstModIndex + |Lines(text)|
    ensures r.Failure? ==> r.error.lineIndex < |Lines(text)|
  {
    ParseLines(Lines(text), FirstModIndex)
  }

  /** The entries of a decoded file are numbered 1, 2, 3, ... in line order. */
  lemma ParseFileNumbering(text: string, k: nat)
    requires ParseFile(text).Success? && k < |ParseFile(text).value.mods|
    ensures ParseFile(text).value.mods[k].Numbered()
    ensures ParseFile(text).value.mods[k].index == k + 1
  {
    ParseLinesAt(Lines(text), FirstModIndex, k);
  }
}

=== FILE: mod_info.dfy ===
/** The entries of a modpack list (`ModPackMaker::ModInfo`): separators,
    standard mods and custom mods, the global index counter that numbers them,
    and the folder/file names derived from them. */
module ModInfos {
  import opened Wrappers
  import opened HostPaths
  import opened Decimal

  /** One entry.  `index` is `ModIndex`; a custom entry never receives one
      (its constructor leaves the field unset and nothing reads it).
      `fileExtension` is empty until the download sets it. */
  datatype ModInfo =
    | Seperator(index: nat, outName: string)
    | Standard(index: nat, link: HostPath, insidePaths: seq<string>, creatorName: string,
               outName: string, originalLink: string, leftOver: string, fileExtension: string)
    | Custom(link: HostPath, insidePaths: seq<string>, outPath: string, outName: string,
             useInstallPath: bool, fileExtension: string)
  {
    /** The entry took a number from the counter. */
    predicate Numbered() {
      !Custom?
    }
  }

  /** The initial value of `CurrentModIndex`. */
  const FirstModIndex: nat := 1

  /** The arguments of each of the three constructors. */
  datatype Ctor =
    | SeperatorCtor(outName: string)
    | StandardCtor(link: string, insidePaths: seq<string>, creatorName: string,
                   outName: string, originalLink: string, leftOver: string)
    | CustomCtor(link: string, insidePaths: seq<string>, outPath: string, outName: string,
                 useInstallPath: bool)
  {
    predicate Numbered() {
      !CustomCtor?
    }
  }

  /** A constructed entry and the counter value after construction. */
  datatype Built = Built(mod: ModInfo, next: nat)

  /** Running one constructor with the counter at `counter`.  The separator and
      standard constructors take the counter as their index and increment it;
      the custom constructor leaves it alone.  Links are cut by `HostPath`. */
  function Construct(c: Ctor, counter: nat): (b: Built)
    ensures b.mod.Numbered() <==> c.Numbered()
    ensures b.mod.Seperator? <==> c.SeperatorCtor?
    ensures c.Numbered() ==> b.mod.index == counter && b.next == counter + 1
    ensures !c.Numbered() ==> b.next == counter
    ensures b.mod.outName == c.outName
    ensures !c.SeperatorCtor? ==> b.mod.link == FromLink(c.link) && b.mod.insidePaths == c.insidePaths
    ensures !c.SeperatorCtor? ==> b.mod.fileExtension == ""
    ensures c.StandardCtor? ==>
      && b.mod.Standard? && b.mod.creatorName == c.creatorName
      && b.mod.originalLink == c.originalLink && b.mod.leftOver == c.leftOver
    ensures c.CustomCtor? ==>
      b.mod.Custom? && b.mod.outPath == c.outPath && b.mod.useInstallPath == c.useInstallPath
  {
    match c
    case SeperatorCtor(outName) =>
      Built(Seperator(counter, outName), counter + 1)
    case StandardCtor(link, paths, creator, outName, original, leftOver) =>
      Built(Standard(counter, FromLink(link), paths, creator, outName, original, leftOver, ""), counter + 1)
    case CustomCtor(link, paths, outPath, outName, useInstallPath) =>
      Built(Custom(FromLink(link), paths, outPath, outName, useInstallPath, ""), counter)
  }

  /** How many of the constructors take a number. */
  function NumberedCount(cs: seq<Ctor>): (n: nat)
    ensures n <= |cs|
    decreases |cs|
  {
    if cs == [] then 0
    else (if cs[0].Numbered() then 1 else 0) + NumberedCount(cs[1..])
  }

  lemma NumberedCountSnoc(cs: seq<Ctor>, c: Ctor)
    ensures NumberedCount(cs + [c]) == NumberedCount(cs) + (if c.Numbered() then 1 else 0)
    decreases |cs|
  {
    if cs != [] {
      assert (cs + [c])[1..] == cs[1..] + [c];
      NumberedCountSnoc(cs[1..], c);
    } else {
      assert [] + [c] == [c];
    }
  }

  /** A batch of entries and the counter value after all of them. */
  datatype Batch = Batch(mods: seq<ModInfo>, next: nat)

  /** Running the constructors in order, threading the counter. */
  function ConstructAll(cs: seq<Ctor>, counter: nat): (b: Batch)
    ensures |b.mods| == |cs|
    ensures b.next == counter + NumberedCount(cs)
    decreases |cs|
  {
    if cs == [] then Batch([], counter)
    else
      var h := Construct(cs[0], counter);
      var t := ConstructAll(cs[1..], h.next);
      Batch([h.mod] + t.mods, t.next)
  }

  /** Entry k of a batch is constructor k run with the counter advanced once
      per numbered constructor before it. */
  lemma {:induction false} ConstructAllAt(cs: seq<Ctor>, counter: nat, k: nat)
    requires k < |cs|
    ensures ConstructAll(cs, counter).mods[k] == Construct(cs[k], counter + NumberedCount(cs[..k])).mod
    decreases k
  {
    if k > 0 {
      var h := Construct(cs[0], counter);
      ConstructAllAt(cs[1..], h.next, k - 1);
      assert cs[..k] == [cs[0]] + cs[1..][..k - 1];
      assert cs[..k][1..] == cs[1..][..k - 1];
    }
  }

  /** Numbered entries get consecutive indices, one per numbered entry before
      them; custom entries leave no gap. */
  lemma ConstructAllIndex(cs: seq<Ctor>, counter: nat, k: nat)
    requires k < |cs| && cs[k].Numbered()
    ensures ConstructAll(cs, counter).mods[k].Numbered() &&
      ConstructAll(cs, counter).mods[k].index == counter + NumberedCount(cs[..k])
  {
    ConstructAllAt(cs, counter, k);
  }

  /** Later numbered entries have strictly larger indices: no index repeats. */
  lemma ConstructAllIncreasing(cs: seq<Ctor>, counter: nat, k: nat, l: nat)
    requires k < l < |cs| && cs[k].Numbered() && cs[l].Numbered()
    ensures var mods := ConstructAll(cs, counter).mods;
      mods[k].Numbered() && mods[l].Numbered() && mods[k].index < mods[l].index
  {
    ConstructAllIndex(cs, counter, k);
    ConstructAllIndex(cs, counter, l);
    assert cs[..k + 1] == cs[..k] + [cs[k]];
    NumberedCountSnoc(cs[..k], cs[k]);
    NumberedCountPrefix(cs, k + 1, l);
  }

  /** A longer prefix has at least as many numbered constructors. */
  lemma {:induction false} NumberedCountPrefix(cs: seq<Ctor>, i: nat, j: nat)
    requires i <= j <= |cs|
    ensures NumberedCount(cs[..i]) <= NumberedCount(cs[..j])
    decreases j - i
  {
    if i < j {
      assert cs[..j] == cs[..j - 1] + [cs[j - 1]];
      NumberedCountSnoc(cs[..j - 1], cs[j - 1]);
      NumberedCountPrefix(cs, i, j - 1);
    }
  }

  /** Without custom constructors, entry k has index `counter + k`. */
  lemma ConstructAllNoCustom(cs: seq<Ctor>, counter: nat, k: nat)
    requires forall i :: 0 <= i < |cs| ==> cs[i].Numbered()
    requires k < |cs|
    ensures var m := ConstructAll(cs, counter).mods[k];
      m.Numbered() && m.index == counter + k
  {
    ConstructAllIndex(cs, counter, k);
    AllNumberedCount(cs[..k]);
  }

  lemma {:induction false} AllNumberedCount(cs: seq<Ctor>)
    requires forall i :: 0 <= i < |cs| ==> cs[i].Numbered()
    ensures NumberedCount(cs) == |cs|
    decreases |cs|
  {
    if cs != [] {
      AllNumberedCount(cs[1..]);
    }
  }

  // ---------------------------------------------------------------------------
  // GetFullFileName
  // ---------------------------------------------------------------------------

  /** `GetFullFileName(withExtension)`: `"{index}- {outName}_separator"` for a
      separator, `"{index}- {outName} {creatorName}"` for a standard mod and
      `outName` for a custom one, the latter two followed by the file
      extension when asked for. */
  function FullFileName(m: ModInfo, withExtension: bool): (name: string)
    ensures m.Numbered() ==> NatToString(m.index) + "- " + m.outName <= name
    ensures m.Seperator? ==> |name| >= 10 && name[|name| - 10..] == "_separator"
    ensures m.Custom? ==> m.outName <= name
    ensures !m.Seperator? && withExtension ==>
      |name| >= |m.fileExtension| && name[|name| - |m.fileExtension|..] == m.fileExtension
    ensures m.Standard? && !withExtension ==>
      |name| >= |m.creatorName| && name[|name| - |m.creatorName|..] == m.creatorName
    ensures m.Seperator? ==> |name| == |NatToString(m.index)| + |m.outName| + 12
    ensures m.Standard? ==>
      var ds := NatToString(m.index);
      && |name| == |ds| + |m.outName| + 3 + |m.creatorName| + (if withExtension then |m.fileExtension| else 0)
      && name[|ds| + 2 + |m.outName|] == ' '
      && name[|ds| + 3 + |m.outName|..|ds| + 3 + |m.outName| + |m.creatorName|] == m.creatorName
    ensures m.Custom? ==> |name| == |m.outName| + (if withExtension then |m.fileExtension| else 0)
  {
    match m
    case Seperator(index, outName) =>
      NatToString(index) + "- " + outName + "_separator"
    case Standard(index, _, _, creatorName, outName, _, _, ext) =>
      NatToString(index) + "- " + outName + " " + creatorName + (if withExtension then ext else "")
    case Custom(_, _, _, outName, _, ext) =>
      outName + (if withExtension then ext else "")
  }

  /** A separator's name ignores the flag; for the other kinds the name with
      extension is the name without it followed by the file extension. */
  lemma FullFileNameExtension(m: ModInfo)
    ensures m.Seperator? ==> FullFileName(m, true) == FullFileName(m, false)
    ensures !m.Seperator? ==> FullFileName(m, true) == FullFileName(m, false) + m.fileExtension
  {
    if m.Standard? {
      assert FullFileName(m, false) == NatToString(m.index) + "- " + m.outName + " " + m.creatorName;
    }
  }

  /** The index a name starts with: its leading digits, when followed by `"- "`. */
  function FileNameIndex(name: string): Option<nat>
  {
    var ds := LeadingDigits(name);
    if ds != [] && |name| >= |ds| + 2 && name[|ds|..|ds| + 2] == "- " then Some(DigitsValue(ds))
    else None
  }

  /** The name of a numbered entry starts with its index: reading the leading
      number back gives the index, whatever the flag. */
  lemma FullFileNameIndex(m: ModInfo, withExtension: bool)
    requires m.Numbered()
    ensures FileNameIndex(FullFileName(m, withExtension)) == Some(m.index)
  {
    var name := FullFileName(m, withExtension);
    var ds := NatToString(m.index);
    var rest := name[|ds|..];
    assert name[..|ds| + 2] == ds + "- ";
    assert name == ds + rest;
    assert rest[..2] == name[|ds|..|ds| + 2] == "- ";
    IndexPrefix(m.index, rest);
  }

  /** A name made of a rendered number and then `"- "` reads back as that number. */
  lemma IndexPrefix(n: nat, rest: string)
    requires |rest| >= 2 && rest[..2] == "- "
    ensures FileNameIndex(NatToString(n) + rest) == Some(n)
  {
    var ds := NatToString(n);
    var name := ds + rest;
    assert rest[0] == '-';
    LeadingDigitsAppend(ds, rest);
    assert name[|ds|..|ds| + 2] == rest[..2];
    NatToStringValue(n);
  }

  /** Numbered entries with different indices have different names, so the
      folders of a modpack never collide. */
  lemma FullFileNamesDistinct(m1: ModInfo, m2: ModInfo, w1: bool, w2: bool)
    requires m1.Numbered() && m2.Numbered() && m1.index != m2.index
    ensures FullFileName(m1, w1) != FullFileName(m2, w2)
  {
    FullFileNameIndex(m1, w1);
    FullFileNameIndex(m2, w2);
  }

  /** The download sets the file extension of a standard or custom entry. */
  function SetFileExtension(m: ModInfo, ext: string): (r: ModInfo)
    ensures r.Numbered() == m.Numbered() && r.outName == m.outName
    ensures r.Seperator? ==> r == m
    ensures !m.Seperator? ==> r.fileExtension == ext && r.(fileExtension := m.fileExtension) == m
  {
    if m.Seperator? then m else m.(fileExtension := ext)
  }
}

=== FILE: nos_string.dfy ===
/** The library string helpers the decoder calls: splitting on a delimiter,
    joining with a delimiter, and `std::string::find` as a substring search.
    The library's own `Split` is not part of this model; it is taken to
    return the delimited pieces in order, keeping empty pieces, so that a
    string with n delimiters yields n + 1 pieces and "" yields [""]. */
module NosString {
  import opened Wrappers

  /** `s` cut at every occurrence of `d`, pieces in order, empty pieces kept. */
  function Split(s: string, d: char): (parts: seq<string>)
    ensures |parts| >= 1
    decreases |s|
  {
    if s == [] then [[]]
    else
      var tail := Split(s[1..], d);
      if s[0] == d then [[]] + tail
      else [[s[0]] + tail[0]] + tail[1..]
  }

  /** The pieces with one `d` between neighbours: the loop that builds the
      `pathList` of the error mod list, and the inverse of `Split`. */
  function Join(parts: seq<string>, d: char): string
    decreases |parts|
  {
    if |parts| == 0 then []
    else if |parts| == 1 then parts[0]
    else parts[0] + [d] + Join(parts[1..], d)
  }

  /** No piece of a split holds the delimiter. */
  lemma {:induction false} SplitPiecesFree(s: string, d: char)
    ensures forall k :: 0 <= k < |Split(s, d)| ==> d !in Split(s, d)[k]
    decreases |s|
  {
    if s != [] {
      SplitPiecesFree(s[1..], d);
      var tail := Split(s[1..], d);
      if s[0] != d {
        assert d !in tail[0];
        assert forall k :: 1 <= k < |tail| ==> d !in tail[k];
      }
    }
  }

  /** A string with n delimiters splits into n + 1 pieces. */
  lemma {:induction false} SplitCount(s: string, d: char)
    ensures |Split(s, d)| == multiset(s)[d] + 1
    decreases |s|
  {
    if s != [] {
      SplitCount(s[1..], d);
      assert s == [s[0]] + s[1..];
      assert multiset(s) == multiset{s[0]} + multiset(s[1..]);
    }
  }

  /** Joining the pieces of a split gives back the string. */
  lemma {:induction false} JoinSplit(s: string, d: char)
    ensures Join(Split(s, d), d) == s
    decreases |s|
  {
    if s != [] {
      JoinSplit(s[1..], d);
      var tail := Split(s[1..], d);
      if s[0] == d {
        assert Join([[]] + tail, d) == [] + [d] + Join(tail, d);
        assert s == [d] + s[1..];
      } else if |tail| == 1 {
        assert s == [s[0]] + s[1..];
      } else {
        var parts := Split(s, d);
        assert parts[1..] == tail[1..];
        assert Join(tail, d) == tail[0] + [d] + Join(tail[1..], d);
        assert s == [s[0]] + s[1..];
      }
    }
  }

  /** A delimiter-free prefix lands in the first piece. */
  lemma {:induction false} SplitPrefix(a: string, s: string, d: char)
    requires d !in a
    ensures Split(a + s, d) == [a + Split(s, d)[0]] + Split(s, d)[1..]
    decreases |a|
  {
    if a != [] {
      assert (a + s)[0] == a[0];
      assert (a + s)[1..] == a[1..] + s;
      SplitPrefix(a[1..], s, d);
      assert [a[0]] + (a[1..] + Split(s, d)[0]) == a + Split(s, d)[0];
    } else {
      assert a + s == s;
      assert a + Split(s, d)[0] == Split(s, d)[0];
      assert Split(s, d) == [Split(s, d)[0]] + Split(s, d)[1..];
    }
  }

  /** Splitting the join of delimiter-free pieces gives back the pieces. */
  lemma {:induction false} SplitJoin(parts: seq<string>, d: char)
    requires |parts| >= 1
    requires forall k :: 0 <= k < |parts| ==> d !in parts[k]
    ensures Split(Join(parts, d), d) == parts
    decreases |parts|
  {
    if |parts| == 1 {
      SplitPrefix(parts[0], [], d);
      assert parts[0] + [] == parts[0];
    } else {
      var rest := Join(parts[1..], d);
      SplitJoin(parts[1..], d);
      SplitPrefix(parts[0], [d] + rest, d);
      assert parts[0] + [d] + rest == parts[0] + ([d] + rest);
      assert ([d] + rest)[0] == d && ([d] + rest)[1..] == rest;
      assert Split([d] + rest, d) == [[]] + parts[1..];
      assert parts[0] + [] == parts[0];
      assert parts == [parts[0]] + parts[1..];
    }
  }

  /** A delimiter-free string is a single piece. */
  lemma SplitFree(s: string, d: char)
    requires d !in s
    ensures Split(s, d) == [s]
  {
    SplitJoin([s], d);
  }

  /** Splitting a string that ends in the delimiter ends in an empty piece. */
  lemma {:induction false} SplitSnocDelim(s: string, d: char)
    ensures Split(s + [d], d) == Split(s, d) + [[]]
    decreases |s|
  {
    if s == [] {
      assert [] + [d] == [d];
      assert [d][1..] == [];
    } else {
      SplitSnocDelim(s[1..], d);
      assert (s + [d])[0] == s[0];
      assert (s + [d])[1..] == s[1..] + [d];
    }
  }

  /** Joining one more piece appends a delimiter and the piece. */
  lemma {:induction false} JoinSnoc(parts: seq<string>, p: string, d: char)
    requires |parts| >= 1
    ensures Join(parts + [p], d) == Join(parts, d) + [d] + p
    decreases |parts|
  {
    if |parts| > 1 {
      assert (parts + [p])[1..] == parts[1..] + [p];
      JoinSnoc(parts[1..], p, d);
    }
  }

  /** The first piece of a split is a prefix of the string. */
  lemma {:induction false} SplitHeadPrefix(s: string, d: char)
    ensures |Split(s, d)[0]| <= |s| && Split(s, d)[0] == s[..|Split(s, d)[0]|]
    decreases |s|
  {
    if s != [] && s[0] != d {
      SplitHeadPrefix(s[1..], d);
      var h := Split(s[1..], d)[0];
      assert s[..1 + |h|] == [s[0]] + s[1..][..|h|];
    }
  }

  /** A join starts with its first piece. */
  lemma JoinFirst(parts: seq<string>, d: char)
    requires |parts| >= 1 && parts[0] != []
    ensures |Join(parts, d)| > 0 && Join(parts, d)[0] == parts[0][0]
  {
  }

  /** A join ends with its last piece. */
  lemma {:induction false} JoinLast(parts: seq<string>, d: char)
    requires |parts| >= 1 && parts[|parts| - 1] != []
    ensures var j := Join(parts, d);
      |j| > 0 && j[|j| - 1] == parts[|parts| - 1][|parts[|parts| - 1]| - 1]
    decreases |parts|
  {
    if |parts| > 1 {
      JoinLast(parts[1..], d);
    }
  }

  /** Every character of a join is a delimiter or a character of some piece. */
  lemma {:induction false} JoinChars(parts: seq<string>, d: char, c: char)
    requires c != d
    requires forall k :: 0 <= k < |parts| ==> c !in parts[k]
    ensures c !in Join(parts, d)
    decreases |parts|
  {
    if |parts| > 1 {
      JoinChars(parts[1..], d, c);
    }
  }

  // ---------------------------------------------------------------------------
  // Substring search: `hay.find(needle) != npos`
  // ---------------------------------------------------------------------------

  /** `needle` occurs in `hay` starting at position `i`. */
  predicate IsAt(hay: string, needle: string, i: nat) {
    i + |needle| <= |hay| && hay[i..i + |needle|] == needle
  }

  /** `needle` occurs somewhere in `hay`. */
  ghost predicate Occurs(needle: string, hay: string) {
    exists i: nat :: IsAt(hay, needle, i)
  }

  /** The first occurrence of `needle` at or after `from`. */
  function FindFrom(hay: string, needle: string, from: nat): (r: Option<nat>)
    ensures r.Some? ==> from <= r.value && IsAt(hay, needle, r.value)
    decreases |hay| - from
  {
    if from + |needle| > |hay| then None
    else if IsAt(hay, needle, from) then Some(from)
    else FindFrom(hay, needle, from + 1)
  }

  lemma {:induction false} FindFromSkips(hay: string, needle: string, from: nat)
    ensures var r := FindFrom(hay, needle, from);
      forall i: nat :: from <= i && (r.None? || i < r.value) ==> !IsAt(hay, needle, i)
    decreases |hay| - from
  {
    if from + |needle| <= |hay| && !IsAt(hay, needle, from) {
      FindFromSkips(hay, needle, from + 1);
    }
  }

  /** `hay.find(needle)`: the first position where `needle` occurs, `None` for `npos`. */
  function Find(hay: string, needle: string): (r: Option<nat>)
    ensures r.Some? ==> IsAt(hay, needle, r.value)
    ensures r.Some? ==> forall i: nat :: i < r.value ==> !IsAt(hay, needle, i)
    ensures r.None? <==> !Occurs(needle, hay)
  {
    FindFromSkips(hay, needle, 0);
    FindFrom(hay, needle, 0)
  }

  /** `hay.find(needle) != npos`. */
  function Contains(hay: string, needle: string): (b: bool)
    ensures b <==> Occurs(needle, hay)
  {
    Find(hay, needle).Some?
  }
}

=== FILE: wrappers.dfy ===
/** Small failure-carrying datatypes shared by the whole model. */
module Wrappers {

  /** A value that may be absent; stands in for `std::wstring::npos` results. */
  datatype Option<+T> = None | Some(value: T)

  /** The outcome of an operation that can fail with an error of type `E`. */
  datatype Result<+R, +E> = Success(value: R) | Failure(error: E)
}
